=== FILE: README.md ===
# Minesweeper engine in Dafny

A model of the minefield engine behind a browser Minesweeper page
(`script.js`), with the page's DOM taken away. The page keeps one grid of
cell records `{isMine, isRevealed, mineCount}` and a few globals: `rows`,
`cols`, `mines`, `isFirstClick` and `isHellMode`. A flag is kept only as
the cell's text. On top of that grid it:

- lays out mines at random when a game starts, and lays them out again
  when the first click arrives, keeping the 3x3 block around the click
  free of mines;
- counts the mines around every safe cell;
- floods the board breadth-first from the first click;
- handles a click, which reveals the cell and cascades through
  zero-count cells by clicking their hidden neighbours;
- counts revealed cells to detect a win;
- toggles a flag on a long press or right click;
- switches between four presets: easy, medium, hard, and a 1x1 "hell"
  board.

The model has these modules:

- `Grid`: the board as `seq<seq<Cell>>` with `Cell(isMine, isRevealed,
  mineCount, flagged)`. The flag mark becomes a field. The module also holds
  the eight neighbour offsets and the set vocabulary the contracts use:
  `Where(b, Mine)`, `Where(b, Revealed)`, and so on.
- `Placement`: the initial layout `PlaceMines`, the first-click re-layout
  `AdjustMines`, and its safe zone. Each draw that the page makes with
  `Math.random` and keeps becomes a nondeterministic choice (`:|`) among the
  cells the page would accept.
- `Numbers`: `CalculateNumbers`, plus the proof that the direction-by-direction
  count equals the number of in-bounds neighbouring mines.
- `Flood`: `RevealSafeArea`, the breadth-first reveal with its queue and
  visited set.
- `Play`: the click handler and the mutually recursive
  `Click`/`RevealAdjacent` cascade. It also holds the win check, the
  long-press toggle, the first-click set-up, and the proofs that a click on a
  correctly numbered board never opens a mine through its cascade.
- `Session`: the presets, a new game, and a stream of clicks and long
  presses. `Step` and `PlaySession` dispatch clicks to the handler as the
  page has it. `StepChecked` and `PlaySessionChecked` use the handler with
  the missing win check restored (see Findings).

## Model

| member | source | states |
|---|---|---|
| Grid.BlankBoard | script.js:14-46 | a fresh grid has exactly rows x cols cells, and every one is a hidden, unflagged, mine-free record with count 0 |
| Grid.DirectionsEnumerateNeighbours | script.js:102-106 | the eight offsets of the count and of the cascade land on neighbours of the cell, on every neighbour, and each on a different one |
| Placement.ZoneOffsetsCoverBlock | script.js:71-84 | the nine offsets the safe zone is built from land in the 3x3 block around the click and reach every cell of it |
| Placement.SafeZone | script.js:71-84 | the zone built from the nine offsets is exactly the in-bounds cells of the 3x3 block around the click, the click included |
| Placement.SafeZoneAtMostNine | script.js:71-84 | the safe zone holds at most nine cells, so the re-layout needs only mines + 9 cells on the board |
| Placement.ClearMines | script.js:86 | after clearing, no cell holds a mine and every cell is otherwise unchanged |
| Placement.PlaceMines | script.js:50-61 | the initial layout adds exactly `mines` mines on cells that had none; it keeps the old mines and touches nothing but mines; it requires enough free cells, since the source's retry loop never ends otherwise |
| Placement.AdjustMines | script.js:64-98 | a 1x1 board gets its one mine; any other board ends with exactly `mines` mines, none in the 3x3 block around the click, and only mine positions change |
| Placement.PlaceOutside | script.js:88-97 | the re-layout loop puts exactly `mines` mines on a mine-free board and keeps every safe-zone cell safe |
| Numbers.CountIsMineNeighbours | script.js:112-124 | counting over the eight directions gives the size of the set of in-bounds neighbours that hold a mine |
| Numbers.MineNeighboursAtMostEight | script.js:112-124 | a shown count is never more than eight |
| Numbers.ZeroMeansNoMineAround | script.js:112-124 | a count of zero holds exactly when no in-bounds neighbour is a mine, in both directions |
| Numbers.CalculateNumbers | script.js:101-127 | every safe cell ends up showing the number of mines around it; mine cells, reveal state and flags are unchanged |
| Numbers.SameMinesSameCounts | script.js:113-123 | the count of a cell depends only on where the mines are |
| Flood.FloodKeepsMines | script.js:281-288 | the flood fill moves no mine, changes no count and leaves already revealed cells alone |
| Flood.RevealSafeArea | script.js:263-305 | a 1x1 board is left alone; otherwise the fill opens only hidden safe cells; it returns the order in which it took positions from the queue, and each cell it opened is the start or a neighbour of a zero cell opened earlier in that order; the start is opened when it is safe; every neighbour of an opened zero cell ends revealed or a mine; no position is taken twice |
| Flood.FloodOrderSameReveal | script.js:263-305 | whether the fill's order accounts for the cells it opened depends on the board before the fill only through which cells were already open |
| Flood.OpenedWithinRegion | script.js:286-302 | the fill stays inside any region that holds the start and contains every neighbour of its safe zero cells: it never opens a cell beyond the zero-connected area around the start |
| Play.CountRevealed | script.js:333-341 | the nested loop counts exactly the revealed cells |
| Play.CheckWin | script.js:332-346 | the game is won exactly when the revealed cells number rows*cols - mines |
| Play.WinMeansAllSafeRevealed | script.js:343-346 | when the board holds exactly `mines` mines and no mine is open, the win test holds exactly when every safe cell is revealed |
| Play.Click | script.js:240-260 | a click only reveals cells, and never un-reveals; it leaves a revealed or flagged cell alone; it reveals the clicked cell; a mine ends the game lost; when the click leaves the game playing, the win test is false |
| Play.RevealAdjacent | script.js:308-329 | the cascade from a zero cell only reveals cells and never adds hidden ones |
| Play.ClickWithinRegion | script.js:240-260 | a click opens nothing outside any region that holds the clicked cell and every neighbour of its safe zero cells, so it stays inside the clicked cell's zero-connected area |
| Play.RevealAdjacentWithinRegion | script.js:308-329 | the cascade around a safe zero cell of such a region opens nothing outside the region |
| Play.ClickOpensOnlyItself | script.js:240-257 | a click on a mine or on a cell showing a non-zero count opens that cell and no other |
| Play.ClickWonCounted | script.js:240-260 | once a click in the cascade has set the game won, the later clicks only reveal more cells, so the revealed count still meets the win test |
| Play.ClickChecksWin | script.js:254-259 | a click on a hidden, unflagged safe cell that meets the win test ends the game won |
| Play.RevealedWithinSafe | script.js:343-346 | when revealing opens no mine and every open cell was safe, at most rows*cols - mines cells are open |
| Play.ClickWinExact | script.js:240-260 | on a correctly numbered board with exactly `mines` mines and no open mine, a click on a hidden, unflagged safe cell never loses, and ends won exactly when the win test holds |
| Play.ClickOnSafeCell | script.js:240-260 | on a correctly numbered board, a click on a safe cell never loses; no cell it reveals is a mine; every zero cell it reveals ends with all neighbours revealed or flagged |
| Play.CascadeFromZero | script.js:308-329 | the cascade around a zero cell never loses and opens no mine; afterwards every neighbour from the current direction on is revealed or flagged |
| Play.LongPress | script.js:130-149 | in hell mode a long press loses; a revealed cell is ignored; otherwise exactly that cell's flag flips; the set of revealed cells never changes |
| Play.LongPressTwice | script.js:143-148 | outside hell mode two long presses on one cell restore the game |
| Play.FirstClickSetUp | script.js:233-237 | after the first-click set-up: the board holds exactly `mines` mines, none around the click, and is correctly numbered; the click shows zero and is revealed; only safe cells were revealed, none left flagged; every neighbour of a newly revealed zero cell is revealed or a mine; the opened cells follow the fill's order from the click through zero cells; every cell not opened keeps its reveal state and its flag |
| Play.SetUpLeavesRest | script.js:233-237 | the re-layout and the numbering change no reveal state and no flag, so the set-up opens exactly the cells the fill opens, in its order, and leaves every other cell's reveal state and flag alone |
| Play.HandleClick | script.js:209-260 | clicks after the game ends do nothing; hell mode loses; after the first click the handler is a plain click; a first click on an unflagged 1x1 cell loses; a first click elsewhere leaves a numbered board with the click safe, its block mine-free, and the game still playing; it opens only the flood fill's chain of zero cells from the click, opens no mine, and every cell it does not open keeps its reveal state and flag |
| Play.FirstClickOnTwoCells | script.js:228-241 | on a mine-free 1x2 board the first click reveals every cell, yet the game stays playing |
| Play.HandleClickChecked | script.js:228-260 | the click handler with the win check after the first-click flood: such a click never loses, opens no mine, and the game is won exactly when the win test holds |
| Play.FirstClickOnTwoCellsChecked | script.js:228-260 | with the win check in place, the same first click wins the game |
| Session.Reset | script.js:362-390 | the four preset names select their settings and only "hell" turns on hell mode, as the 1x1 board with one mine; any other name keeps the previous settings; a playable configuration stays playable |
| Session.PresetsFit | script.js:1-3 | the start-up settings and every preset are playable |
| Session.FitsFirstClick | script.js:89-97 | under a playable configuration the first-click re-layout always has room for its mines, so its loop ends |
| Session.NewGame | script.js:424-428 | a new game has exactly `mines` mines and correct counts; nothing is revealed or flagged; the next click is the first |
| Session.ClickKeepsSound | script.js:240-260 | a click after the first keeps the counts right, the mines in place, and no mine open unless the game is lost; on a hidden, unflagged safe cell it never loses and wins exactly when the win test holds |
| Session.LongPressKeepsSound | script.js:130-149 | a long press moves no mine, changes no count and opens no cell |
| Session.FirstClickKeepsSound | script.js:228-241 | after the first click on a larger board, every open cell is safe and the board is correctly numbered with exactly the configured mines |
| Session.Step | script.js:151-166 | a click goes to handleCellClick as written, a long press or right click to the flag toggle; a click in hell mode loses with the grid unchanged; the counts stay right, the mines stay put, no mine is open unless the game is lost, and a win is declared only when the win test holds; the first click leaves the game in play, opens the fill's chain of zero cells from the tap, and leaves every other cell's reveal state and flag alone |
| Session.FirstTapOnEmptyThreeByThree | script.js:228-241 | on an empty 3x3 board, which the presets' rule accepts, the first tap opens all nine cells and meets the win test, yet the game stays in play |
| Session.PlaySession | script.js:424-434 | through any sequence of clicks and long presses on a new game, the configuration and all of the above are kept |
| Session.StepChecked | script.js:151-166 | with the win check also after the first click, a click in hell mode still loses, and one event additionally keeps the rule that a game in play after its first click has not yet met the win test |
| Session.PlaySessionChecked | script.js:424-434 | with the corrected handler, no sequence of events leaves a game in play after its first click with the win test already met |

## Left out

- The DOM, styling and cell size: the `cellSize` computation, colours,
  font sizes, the container layout and the `single-cell` class are not
  modelled. They do not affect the game state.
- Event plumbing: the 500 ms long-press timer and the pointer handlers are
  not modelled. A long press or right click is one `Press` event. The guard
  at the top of `handleCellClick` that cancels a pending long-press timer is
  not modelled: a click counts as a click.
- Alerts and timing: `alert` and the moment `endGame` runs are not modelled. Won and Lost
  become a status. A win is announced at once: `checkWin` calls `alert` and
  `endGame(true)` directly. A loss is announced after a 100 ms delay: the
  page puts the loss `alert` and `endGame(false)` in a `setTimeout`. The model
  sets Lost at the moment the page schedules that announcement.
- Repeated announcements: a cascade can run the win check several times, so
  the page may announce a win more than once. The model keeps one Won status.
- `Math.random`: it is replaced by nondeterministic choice among the cells a
  draw would accept. Rejected draws change nothing and are not modelled.
- PlaceMines and AdjustMines: they require that enough cells are free. The
  source loops forever otherwise, and the model does not model divergence.
- `endGame`: it removes the click listener, so a click after the game has
  ended does nothing. It does not remove the anonymous right-click listener,
  so a right click still toggles flags after the end. It does remove the
  pointer listeners, so a touch long press stops toggling flags once the
  game has ended. The model's `Press` event stands for the right click
  there. All of this follows the source.
- The flag: it lives in the cell's text. The flood fill rewrites that text,
  so a flagged cell it opens loses its flag. A click in the cascade never
  opens a flagged cell.
- Mines are laid when the game is created and laid again on the first
  click. The first-click path does not reach the win check (see Findings).
  The flood fill ignores flags.
- Hell mode: a click or long press goes straight to the explosion, so the
  grid is unchanged and the game is lost. This happens even after the game
  has ended, because the right-click listener stays attached.
- ClickOnSafeCell: the guarantee that a click on a safe cell never loses
  is proved for correctly numbered boards only. Every game the page creates
  has one. A click on a board with wrong counts is modelled, but no such
  guarantee is proved for it.
- Session.Step: an event for a position off the board is ignored, because
  the page only delivers events for its own cells.

## Findings

| source | as written | input that shows it | evidently intended | confidence | as-written member | corrected member |
|---|---|---|---|---|---|---|
| script.js:228-241 | on the first click, `revealSafeArea` reveals the clicked cell, and the handler then returns early at the `isRevealed` guard, so `checkWin` never runs for the first click | a 1x2 board with no mines, first click at (0, 0): both cells are revealed and the game stays in play, with nothing left to click; likewise a 3x3 board with no mines, first click in the centre; the same happens on the easy preset when the twenty mines fill the bottom two rows and the first click lands in the top row | the win check runs after the first-click flood fill, as it does after every other reveal | not executed | Play.FirstClickOnTwoCells, Session.FirstTapOnEmptyThreeByThree | Play.HandleClickChecked, Session.PlaySessionChecked |

=== FILE: flood.dfy ===
/** The breadth-first reveal run once, right after the first click has laid
    out the mines. */
module Flood {
  import opened Grid

  /** A cell as the flood fill reveals it. The fill rewrites the cell's text,
      and the flag mark is that text, so a flag on the cell disappears. */
  function Opened(x: Cell): (y: Cell)
    ensures y.isRevealed && !y.flagged
    ensures y.isMine == x.isMine && y.mineCount == x.mineCount
  {
    x.(isRevealed := true, flagged := false)
  }

  /** b arises from b0 by flood reveals only: a cell is unchanged, or it was a
      hidden safe cell and is now open. */
  ghost predicate FloodedFrom(b0: Board, b: Board) {
    SameShape(b0, b) &&
    forall p :: b0.InBounds(p) ==>
      b.At(p) == b0.At(p) ||
      (b.At(p) == Opened(b0.At(p)) && !b0.At(p).isRevealed && !b0.At(p).isMine)
  }

  /** The fill moves no mine and changes no count. */
  lemma FloodKeepsMines(b0: Board, b: Board)
    requires FloodedFrom(b0, b)
    ensures SameMines(b0, b)
    ensures forall p :: b0.InBounds(p) ==> b.At(p).mineCount == b0.At(p).mineCount
    ensures forall p :: b0.InBounds(p) && b0.At(p).isRevealed ==> b.At(p) == b0.At(p)
  {
  }

  /** p was hidden in b0 and is revealed in b. */
  ghost predicate NewlyOpened(b0: Board, b: Board, p: Pos)
    requires SameShape(b0, b)
  {
    b0.InBounds(p) && !b0.At(p).isRevealed && b.At(p).isRevealed
  }

  /** n was opened by the fill and shows zero, so its neighbours were queued. */
  ghost predicate ZeroOpened(b0: Board, b: Board, n: Pos)
    requires SameShape(b0, b)
  {
    NewlyOpened(b0, b, n) && b.At(n).mineCount == 0
  }

  /** Having processed the positions `done`, the fill may reach q: q is where
      it started, or a neighbour of a zero cell it opened among `done`. */
  ghost predicate Reached(b0: Board, b: Board, start: Pos, done: seq<Pos>, q: Pos)
    requires SameShape(b0, b)
  {
    q == start ||
    exists i :: 0 <= i < |done| && ZeroOpened(b0, b, done[i]) && Adjacent(done[i], q)
  }

  /** Every cell the fill opened was reached through the positions processed
      before it; so the opened cells form one chain of zero cells from the start. */
  ghost predicate OpenedInTurn(b0: Board, b: Board, start: Pos, order: seq<Pos>)
    requires SameShape(b0, b)
  {
    forall j :: 0 <= j < |order| && NewlyOpened(b0, b, order[j]) ==> Reached(b0, b, start, order[..j], order[j])
  }

  /** Reaching survives opening more cells and processing more positions. */
  lemma ReachedKept(b0: Board, b: Board, b': Board, start: Pos, done: seq<Pos>, done': seq<Pos>, q: Pos)
    requires SameShape(b0, b) && SameShape(b0, b')
    requires forall n :: ZeroOpened(b0, b, n) ==> ZeroOpened(b0, b', n)
    requires done <= done'
    requires Reached(b0, b, start, done, q)
    ensures Reached(b0, b', start, done', q)
  {
    if q != start {
      var i :| 0 <= i < |done| && ZeroOpened(b0, b, done[i]) && Adjacent(done[i], q);
      assert done'[i] == done[i];
    }
  }

  /** The in-bounds neighbours of p through directions k, k+1, ..., in order. */
  function NeighboursFrom(b: Board, p: Pos, k: nat): (s: seq<Pos>)
    requires k <= |Directions|
    ensures forall q :: q in s ==> b.InBounds(q) && Adjacent(p, q)
    ensures forall i :: k <= i < |Directions| && b.InBounds(Shift(p, Directions[i])) ==>
              Shift(p, Directions[i]) in s
    decreases |Directions| - k
  {
    DirectionsEnumerateNeighbours(p);
    if k == |Directions| then []
    else
      var q := Shift(p, Directions[k]);
      (if b.InBounds(q) then [q] else []) + NeighboursFrom(b, p, k + 1)
  }

  /** Every in-bounds neighbour is pushed. */
  lemma AllNeighboursPushed(b: Board, p: Pos)
    ensures forall q :: b.InBounds(q) && Adjacent(p, q) ==> q in NeighboursFrom(b, p, 0)
  {
    DirectionsEnumerateNeighbours(p);
  }

  /** Opening one more hidden safe cell keeps every fact the loop relies on. */
  lemma OpenOne(b0: Board, b: Board, start: Pos, p: Pos)
    requires FloodedFrom(b0, b) && b.InBounds(p)
    requires !b.At(p).isMine && !b.At(p).isRevealed
    ensures FloodedFrom(b0, b.Update(p, Opened(b.At(p))))
    ensures NewlyOpened(b0, b.Update(p, Opened(b.At(p))), p)
    ensures forall q :: NewlyOpened(b0, b, q) ==> NewlyOpened(b0, b.Update(p, Opened(b.At(p))), q)
    ensures forall q :: NewlyOpened(b0, b.Update(p, Opened(b.At(p))), q) ==> NewlyOpened(b0, b, q) || q == p
    ensures forall n :: ZeroOpened(b0, b, n) ==> ZeroOpened(b0, b.Update(p, Opened(b.At(p))), n)
  {
  }

  /** Taking a new position into the visited set shrinks the unvisited cells
      when it is on the board and leaves them alone otherwise. */
  lemma VisitOne(all: set<Pos>, visited: set<Pos>, p: Pos)
    requires p !in visited
    ensures p in all ==> |all - (visited + {p})| < |all - visited|
    ensures p !in all ==> all - (visited + {p}) == all - visited
  {
    if p in all {
      assert all - (visited + {p}) == (all - visited) - {p};
    }
  }

  /** The positions processed so far, each once. */
  ghost predicate ProcessedOnce(visited: set<Pos>, order: seq<Pos>) {
    visited == (set q | q in order) &&
    forall i, j :: 0 <= i < j < |order| ==> order[i] != order[j]
  }

  ghost predicate QueueReached(b0: Board, b: Board, start: Pos, order: seq<Pos>, queue: seq<Pos>)
    requires SameShape(b0, b)
  {
    forall q :: q in queue ==> Reached(b0, b, start, order, q)
  }

  ghost predicate OpenedVisited(b0: Board, b: Board, start: Pos, visited: set<Pos>, order: seq<Pos>)
    requires SameShape(b0, b)
  {
    (forall q :: NewlyOpened(b0, b, q) ==> q in visited) && OpenedInTurn(b0, b, start, order)
  }

  /** A processed cell on the board is revealed or is a mine. */
  ghost predicate VisitedSettled(b: Board, visited: set<Pos>)
    requires b.Valid()
  {
    forall q :: q in visited && b.InBounds(q) ==> b.At(q).isRevealed || b.At(q).isMine
  }

  /** The neighbours of an opened zero cell are processed or still queued. */
  ghost predicate ZeroNeighboursPending(b0: Board, b: Board, visited: set<Pos>, queue: seq<Pos>)
    requires SameShape(b0, b)
  {
    forall n, q ::
      (n in visited && NewlyOpened(b0, b, n) && b.At(n).mineCount == 0 && b.InBounds(q) && Adjacent(n, q))
      ==> q in visited || q in queue
  }

  ghost predicate StartFirst(start: Pos, visited: set<Pos>, queue: seq<Pos>) {
    (visited == {} ==> queue == [start]) && (visited != {} ==> start in visited)
  }

  /** What holds each time the fill loop tests its queue. */
  ghost predicate FillInv(b0: Board, b: Board, start: Pos, queue: seq<Pos>, visited: set<Pos>, order: seq<Pos>) {
    && FloodedFrom(b0, b)
    && ProcessedOnce(visited, order)
    && QueueReached(b0, b, start, order, queue)
    && OpenedVisited(b0, b, start, visited, order)
    && VisitedSettled(b, visited)
    && ZeroNeighboursPending(b0, b, visited, queue)
    && StartFirst(start, visited, queue)
  }

  lemma FillStart(b0: Board, start: Pos)
    requires b0.Valid()
    ensures FillInv(b0, b0, start, [start], {}, [])
  {
  }

  /** The head of the queue was visited before: it is dropped. */
  lemma FillSkipSeen(b0: Board, b: Board, start: Pos, queue: seq<Pos>, visited: set<Pos>, order: seq<Pos>)
    requires FillInv(b0, b, start, queue, visited, order)
    requires |queue| > 0 && queue[0] in visited
    ensures FillInv(b0, b, start, queue[1..], visited, order)
  {
    assert forall q :: q in queue ==> q == queue[0] || q in queue[1..];
  }

  /** The head is new but off the board, a mine or already revealed: it is
      only marked visited. */
  lemma FillSkipBlocked(b0: Board, b: Board, start: Pos, queue: seq<Pos>, visited: set<Pos>, order: seq<Pos>)
    requires FillInv(b0, b, start, queue, visited, order)
    requires |queue| > 0 && queue[0] !in visited
    requires !b.InBounds(queue[0]) || b.At(queue[0]).isMine || b.At(queue[0]).isRevealed
    ensures FillInv(b0, b, start, queue[1..], visited + {queue[0]}, order + [queue[0]])
  {
    var p := queue[0];
    assert forall q :: q in queue ==> q == queue[0] || q in queue[1..];
    QueueReachedKept(b0, b, b, start, order, order + [p], queue[1..]);
    assert !NewlyOpened(b0, b, p);
    InTurnKept(b0, b, b, start, order, p);
  }

  /** The queue stays reached as cells open and positions are processed. */
  lemma QueueReachedKept(b0: Board, b: Board, b': Board, start: Pos, order: seq<Pos>, order': seq<Pos>, queue: seq<Pos>)
    requires SameShape(b0, b) && SameShape(b0, b')
    requires forall n :: ZeroOpened(b0, b, n) ==> ZeroOpened(b0, b', n)
    requires order <= order' && QueueReached(b0, b, start, order, queue)
    ensures QueueReached(b0, b', start, order', queue)
  {
    forall q | q in queue ensures Reached(b0, b', start, order', q) {
      ReachedKept(b0, b, b', start, order, order', q);
    }
  }

  /** Processing p keeps every opened cell reached in its turn, provided p
      itself, when opened, was reached through the positions before it. */
  lemma InTurnKept(b0: Board, b: Board, b': Board, start: Pos, order: seq<Pos>, p: Pos)
    requires SameShape(b0, b) && SameShape(b0, b') && OpenedInTurn(b0, b, start, order) && p !in order
    requires forall q :: NewlyOpened(b0, b', q) ==> NewlyOpened(b0, b, q) || q == p
    requires forall n :: ZeroOpened(b0, b, n) ==> ZeroOpened(b0, b', n)
    requires NewlyOpened(b0, b', p) ==> Reached(b0, b', start, order, p)
    ensures OpenedInTurn(b0, b', start, order + [p])
  {
    var order' := order + [p];
    forall j | 0 <= j < |order'| && NewlyOpened(b0, b', order'[j])
      ensures Reached(b0, b', start, order'[..j], order'[j])
    {
      if j < |order| {
        assert order'[..j] == order[..j] && order'[j] == order[j];
        assert order[j] != p;
        ReachedKept(b0, b, b', start, order[..j], order[..j], order[j]);
      } else {
        assert order'[..j] == order;
      }
    }
  }

  /** The queue after the head p is opened on board b'. */
  function QueueAfterOpen(b': Board, queue: seq<Pos>, p: Pos): seq<Pos>
    requires |queue| > 0 && b'.Valid() && b'.InBounds(p)
  {
    queue[1..] + (if b'.At(p).mineCount == 0 then NeighboursFrom(b', p, 0) else [])
  }

  /** The head is a new hidden safe cell: it is revealed, and its neighbours
      are queued when it shows zero. */
  lemma FillOpen(b0: Board, b: Board, start: Pos, queue: seq<Pos>, visited: set<Pos>, order: seq<Pos>)
    requires FillInv(b0, b, start, queue, visited, order)
    requires |queue| > 0 && queue[0] !in visited
    requires b.InBounds(queue[0]) && !b.At(queue[0]).isMine && !b.At(queue[0]).isRevealed
    ensures var b' := b.Update(queue[0], Opened(b.At(queue[0])));
            FillInv(b0, b', start, QueueAfterOpen(b', queue, queue[0]), visited + {queue[0]}, order + [queue[0]])
  {
    var p := queue[0];
    var b' := b.Update(p, Opened(b.At(p)));
    var queue' := QueueAfterOpen(b', queue, p);
    OpenOne(b0, b, start, p);
    OpenQueueReached(b0, b, start, order, queue, p);
    OpenSettled(b, visited, p);
    OpenPending(b0, b, visited, queue, p);
    OpenVisited(b0, b, start, queue, visited, order);
    assert ProcessedOnce(visited + {p}, order + [p]);
    assert StartFirst(start, visited + {p}, queue');
  }

  lemma OpenVisited(b0: Board, b: Board, start: Pos, queue: seq<Pos>, visited: set<Pos>, order: seq<Pos>)
    requires FloodedFrom(b0, b) && ProcessedOnce(visited, order)
    requires QueueReached(b0, b, start, order, queue) && OpenedVisited(b0, b, start, visited, order)
    requires |queue| > 0 && queue[0] !in visited
    requires b.InBounds(queue[0]) && !b.At(queue[0]).isMine && !b.At(queue[0]).isRevealed
    ensures var b' := b.Update(queue[0], Opened(b.At(queue[0])));
            OpenedVisited(b0, b', start, visited + {queue[0]}, order + [queue[0]])
  {
    var p := queue[0];
    var b' := b.Update(p, Opened(b.At(p)));
    OpenOne(b0, b, start, p);
    assert p in queue;
    ReachedKept(b0, b, b', start, order, order, p);
    InTurnKept(b0, b, b', start, order, p);
  }

  lemma OpenQueueReached(b0: Board, b: Board, start: Pos, order: seq<Pos>, queue: seq<Pos>, p: Pos)
    requires FloodedFrom(b0, b) && QueueReached(b0, b, start, order, queue)
    requires |queue| > 0 && p == queue[0]
    requires b.InBounds(p) && !b.At(p).isMine && !b.At(p).isRevealed
    ensures var b' := b.Update(p, Opened(b.At(p)));
            QueueReached(b0, b', start, order + [p], QueueAfterOpen(b', queue, p))
  {
    var b' := b.Update(p, Opened(b.At(p)));
    var order' := order + [p];
    OpenOne(b0, b, start, p);
    AllNeighboursPushed(b', p);
    forall q | q in QueueAfterOpen(b', queue, p) ensures Reached(b0, b', start, order', q) {
      if q in queue[1..] {
        assert q in queue;
        ReachedKept(b0, b, b', start, order, order', q);
      } else {
        assert Adjacent(p, q) && ZeroOpened(b0, b', p);
        assert order'[|order|] == p;
      }
    }
  }

  lemma OpenSettled(b: Board, visited: set<Pos>, p: Pos)
    requires b.Valid() && VisitedSettled(b, visited) && b.InBounds(p)
    ensures VisitedSettled(b.Update(p, Opened(b.At(p))), visited + {p})
  {
  }

  lemma OpenPending(b0: Board, b: Board, visited: set<Pos>, queue: seq<Pos>, p: Pos)
    requires FloodedFrom(b0, b) && ZeroNeighboursPending(b0, b, visited, queue)
    requires |queue| > 0 && p == queue[0]
    requires b.InBounds(p) && !b.At(p).isMine && !b.At(p).isRevealed
    ensures var b' := b.Update(p, Opened(b.At(p)));
            ZeroNeighboursPending(b0, b', visited + {p}, QueueAfterOpen(b', queue, p))
  {
    var b' := b.Update(p, Opened(b.At(p)));
    var queue' := QueueAfterOpen(b', queue, p);
    OpenOne(b0, b, p, p);
    AllNeighboursPushed(b', p);
    forall n, q | n in visited + {p} && NewlyOpened(b0, b', n) && b'.At(n).mineCount == 0 &&
                  b'.InBounds(q) && Adjacent(n, q)
      ensures q in visited + {p} || q in queue'
    {
      if n != p {
        assert NewlyOpened(b0, b, n) && b.At(n).mineCount == 0;
        assert q in visited || q in queue;
        assert q in queue ==> q == p || q in queue[1..];
      }
    }
  }

  /** An empty queue: the loop's invariant gives the fill's guarantees. */
  lemma FillDone(b0: Board, b: Board, start: Pos, visited: set<Pos>, order: seq<Pos>)
    requires FillInv(b0, b, start, [], visited, order)
    ensures FloodedFrom(b0, b)
    ensures OpenedInTurn(b0, b, start, order)
    ensures b0.InBounds(start) && !b0.At(start).isMine ==> b.At(start).isRevealed
    ensures forall n, q ::
              (NewlyOpened(b0, b, n) && b.At(n).mineCount == 0 && b.InBounds(q) && Adjacent(n, q))
              ==> b.At(q).isRevealed || b.At(q).isMine
    ensures forall i, j :: 0 <= i < j < |order| ==> order[i] != order[j]
    ensures forall q :: NewlyOpened(b0, b, q) ==> q in order
  {
    if b0.InBounds(start) && !b0.At(start).isMine {
      assert start in visited;
    }
  }

  /** Every neighbour of a safe cell of the region showing zero is in the region. */
  ghost predicate ZeroClosed(b0: Board, region: set<Pos>)
    requires b0.Valid()
  {
    forall n, q ::
      (n in region && b0.InBounds(n) && !b0.At(n).isMine && b0.At(n).mineCount == 0 && Adjacent(n, q))
      ==> q in region
  }

  /** A region that holds the start and every neighbour of each of its safe
      cells showing zero holds every cell the fill opens: the fill never
      jumps to a part of the board its zero cells do not connect to. */
  lemma OpenedWithinRegion(b0: Board, b: Board, start: Pos, order: seq<Pos>, region: set<Pos>)
    requires FloodedFrom(b0, b) && OpenedInTurn(b0, b, start, order)
    requires forall q :: NewlyOpened(b0, b, q) ==> q in order
    requires start in region
    requires ZeroClosed(b0, region)
    ensures forall q :: NewlyOpened(b0, b, q) ==> q in region
  {
    OpenedWithinRegionUpTo(b0, b, start, order, region, |order|);
    forall q | NewlyOpened(b0, b, q) ensures q in region {
      var j :| 0 <= j < |order| && order[j] == q;
    }
  }

  lemma {:induction false} OpenedWithinRegionUpTo(b0: Board, b: Board, start: Pos, order: seq<Pos>, region: set<Pos>, j: nat)
    requires FloodedFrom(b0, b) && OpenedInTurn(b0, b, start, order) && j <= |order|
    requires start in region
    requires ZeroClosed(b0, region)
    ensures forall i :: 0 <= i < j && NewlyOpened(b0, b, order[i]) ==> order[i] in region
    decreases j
  {
    if j > 0 {
      OpenedWithinRegionUpTo(b0, b, start, order, region, j - 1);
      var q := order[j - 1];
      if NewlyOpened(b0, b, q) && q != start {
        var done := order[..j - 1];
        assert Reached(b0, b, start, done, q);
        var i :| 0 <= i < |done| && ZeroOpened(b0, b, done[i]) && Adjacent(done[i], q);
        assert done[i] == order[i];
        assert order[i] in region;
      }
    }
  }

  /** The fill's record of its run: every cell it opened was taken off the
      queue, in an order where each is the start or a neighbour of a zero
      cell opened before it. */
  ghost predicate FloodOrder(b0: Board, b: Board, start: Pos, order: seq<Pos>)
    requires SameShape(b0, b)
  {
    OpenedInTurn(b0, b, start, order) && forall q :: NewlyOpened(b0, b, q) ==> q in order
  }

  /** The record depends on the board before the fill only through which
      cells were already open. */
  lemma FloodOrderSameReveal(a: Board, a': Board, b: Board, start: Pos, order: seq<Pos>)
    requires SameShape(a, b) && SameShape(a', b)
    requires forall q :: a.InBounds(q) ==> a'.At(q).isRevealed == a.At(q).isRevealed
    requires FloodOrder(a', b, start, order)
    ensures FloodOrder(a, b, start, order)
  {
    forall q ensures NewlyOpened(a, b, q) == NewlyOpened(a', b, q) && ZeroOpened(a, b, q) == ZeroOpened(a', b, q) {
    }
    forall j | 0 <= j < |order| && NewlyOpened(a, b, order[j])
      ensures Reached(a, b, start, order[..j], order[j])
    {
      assert Reached(a', b, start, order[..j], order[j]);
    }
  }

  /** The first-click flood fill: a queue of positions and a visited set.
      A position is taken off the queue and skipped when it was seen before,
      is off the board, is a mine or is already revealed; otherwise its cell
      is revealed and, when it shows zero, all its in-bounds neighbours are
      queued. A 1x1 board is left alone. The ghost `order` lists the
      positions processed, in order. */
  method RevealSafeArea(b0: Board, start: Pos) returns (b: Board, ghost order: seq<Pos>)
    requires b0.Valid()
    ensures b0.rows == 1 && b0.cols == 1 ==> b == b0
    ensures FloodedFrom(b0, b)
    ensures OpenedInTurn(b0, b, start, order)
    ensures !(b0.rows == 1 && b0.cols == 1) && b0.InBounds(start) && !b0.At(start).isMine ==>
              b.At(start).isRevealed
    ensures forall n, q ::
              (NewlyOpened(b0, b, n) && b.At(n).mineCount == 0 && b.InBounds(q) && Adjacent(n, q))
              ==> b.At(q).isRevealed || b.At(q).isMine
    ensures forall i, j :: 0 <= i < j < |order| ==> order[i] != order[j]
    ensures forall q :: NewlyOpened(b0, b, q) ==> q in order
  {
    b := b0;
    order := [];
    if b0.rows == 1 && b0.cols == 1 {
      return;
    }
    var queue := [start];
    var visited: set<Pos> := {};
    FillStart(b0, start);
    while |queue| > 0
      invariant FillInv(b0, b, start, queue, visited, order)
      decreases |Where(b0, Any) - visited|, |queue|
    {
      b, queue, visited, order := FillStep(b0, start, b, queue, visited, order);
    }
    FillDone(b0, b, start, visited, order);
  }

  /** One iteration of the fill loop: the head of the queue is taken off and
      processed. */
  method FillStep(b0: Board, start: Pos, b: Board, queue: seq<Pos>, visited: set<Pos>, ghost order: seq<Pos>)
    returns (b': Board, queue': seq<Pos>, visited': set<Pos>, ghost order': seq<Pos>)
    requires FillInv(b0, b, start, queue, visited, order) && |queue| > 0
    ensures FillInv(b0, b', start, queue', visited', order')
    ensures |Where(b0, Any) - visited'| < |Where(b0, Any) - visited| ||
            (|Where(b0, Any) - visited'| == |Where(b0, Any) - visited| && |queue'| < |queue|)
  {
    var p := queue[0];
    if p in visited {
      FillSkipSeen(b0, b, start, queue, visited, order);
      return b, queue[1..], visited, order;
    }
    VisitOne(Where(b0, Any), visited, p);
    if !b.InBounds(p) || b.At(p).isMine || b.At(p).isRevealed {
      FillSkipBlocked(b0, b, start, queue, visited, order);
      return b, queue[1..], visited + {p}, order + [p];
    }
    FillOpen(b0, b, start, queue, visited, order);
    b' := b.Update(p, Opened(b.At(p)));
    queue', visited', order' := QueueAfterOpen(b', queue, p), visited + {p}, order + [p];
  }
}

=== FILE: grid.dfy ===
/** The minefield data: cells, the rows x cols board that holds them, and the
    set/count vocabulary every other module states its contracts in. */
module Grid {

  /** A coordinate. Unbounded so that neighbour arithmetic may step off the board. */
  datatype Pos = Pos(row: int, col: int)

  /** One square: the record built for every cell when the grid is created,
      plus the flag mark that the page keeps as the cell's text. */
  datatype Cell = Cell(isMine: bool, isRevealed: bool, mineCount: int, flagged: bool)

  /** The record every cell starts as. */
  const Blank := Cell(false, false, 0, false)

  datatype Board = Board(rows: nat, cols: nat, cells: seq<seq<Cell>>) {

    /** The cell sequence really is rows x cols. */
    predicate Valid() {
      |cells| == rows && forall r :: 0 <= r < rows ==> |cells[r]| == cols
    }

    predicate InBounds(p: Pos) {
      0 <= p.row < rows && 0 <= p.col < cols
    }

    function At(p: Pos): Cell
      requires Valid() && InBounds(p)
    {
      cells[p.row][p.col]
    }

    /** The board with the cell at p replaced by x. */
    function Update(p: Pos, x: Cell): (b: Board)
      requires Valid() && InBounds(p)
      ensures b.Valid() && b.rows == rows && b.cols == cols
      ensures b.At(p) == x
      ensures forall q :: InBounds(q) && q != p ==> b.At(q) == At(q)
    {
      Board(rows, cols, cells[p.row := cells[p.row][p.col := x]])
    }
  }

  /** A rows x cols board of blank cells (the data half of createGrid). */
  function BlankBoard(rows: nat, cols: nat): (b: Board)
    ensures b.Valid() && b.rows == rows && b.cols == cols
    ensures forall p :: b.InBounds(p) ==> b.At(p) == Blank
  {
    Board(rows, cols, seq(rows, _ => seq(cols, _ => Blank)))
  }

  predicate SameShape(a: Board, b: Board) {
    a.Valid() && b.Valid() && a.rows == b.rows && a.cols == b.cols
  }

  /** The two boards agree on where the mines are. */
  ghost predicate SameMines(a: Board, b: Board) {
    SameShape(a, b) && forall p :: a.InBounds(p) ==> a.At(p).isMine == b.At(p).isMine
  }

  // ---------------------------------------------------------------------------
  // Neighbourhoods

  /** The eight offsets, in the order the source lists them. */
  const Directions: seq<(int, int)> :=
    [(-1, -1), (-1, 0), (-1, 1), (0, -1), (0, 1), (1, -1), (1, 0), (1, 1)]

  function Shift(p: Pos, d: (int, int)): Pos {
    Pos(p.row + d.0, p.col + d.1)
  }

  /** q lies in the 3x3 block centred on p (p itself included). */
  predicate Near(p: Pos, q: Pos) {
    -1 <= q.row - p.row <= 1 && -1 <= q.col - p.col <= 1
  }

  /** q is one of p's eight Moore neighbours. */
  predicate Adjacent(p: Pos, q: Pos) {
    Near(p, q) && p != q
  }

  /** The direction list enumerates exactly the eight neighbours, each once. */
  lemma DirectionsEnumerateNeighbours(p: Pos)
    ensures forall k :: 0 <= k < |Directions| ==> Adjacent(p, Shift(p, Directions[k]))
    ensures forall q :: Adjacent(p, q) ==> exists k :: 0 <= k < |Directions| && Shift(p, Directions[k]) == q
    ensures forall i, j :: 0 <= i < j < |Directions| ==> Shift(p, Directions[i]) != Shift(p, Directions[j])
  {
    forall q | Adjacent(p, q)
      ensures exists k :: 0 <= k < |Directions| && Shift(p, Directions[k]) == q
    {
      var d := (q.row - p.row, q.col - p.col);
      assert Shift(p, d) == q;
      var k := if d == (-1, -1) then 0 else if d == (-1, 0) then 1 else if d == (-1, 1) then 2
        else if d == (0, -1) then 3 else if d == (0, 1) then 4 else if d == (1, -1) then 5
        else if d == (1, 0) then 6 else 7;
      assert Directions[k] == d;
    }
  }

  // ---------------------------------------------------------------------------
  // Sets of cells and their sizes

  /** The properties of a cell the game counts. */
  datatype Kind = Mine | Safe | Revealed | Hidden | Any

  predicate Holds(k: Kind, x: Cell) {
    match k
    case Mine => x.isMine
    case Safe => !x.isMine
    case Revealed => x.isRevealed
    case Hidden => !x.isRevealed
    case Any => true
  }

  /** The positions of the board whose cell is of kind k. */
  function Where(b: Board, k: Kind): (s: set<Pos>)
    requires b.Valid()
    ensures forall p :: p in s <==> b.InBounds(p) && Holds(k, b.At(p))
  {
    var s := set r, c | 0 <= r < b.rows && 0 <= c < b.cols && Holds(k, b.cells[r][c]) :: Pos(r, c);
    assert forall p :: b.InBounds(p) && Holds(k, b.At(p)) ==> p in s by {
      forall p | b.InBounds(p) && Holds(k, b.At(p)) ensures p in s {
        assert p == Pos(p.row, p.col);
      }
    }
    s
  }

  /** A row-major scan standing at (i, j) has passed p: p lies in rows
      0..i-1, or in row i before column j. */
  predicate Before(p: Pos, i: int, j: int) {
    p.row < i || (p.row == i && p.col < j)
  }

  /** Cells of kind k that a row-major scan has passed when it stands at (i, j). */
  function Scanned(b: Board, k: Kind, i: int, j: int): (s: set<Pos>)
    requires b.Valid()
    ensures s <= Where(b, k)
    ensures forall p :: p in s <==> p in Where(b, k) && Before(p, i, j)
  {
    set p | p in Where(b, k) && Before(p, i, j)
  }

  lemma ScannedNone(b: Board, k: Kind)
    requires b.Valid()
    ensures Scanned(b, k, 0, 0) == {}
  {
  }

  lemma ScannedAll(b: Board, k: Kind)
    requires b.Valid()
    ensures Scanned(b, k, b.rows, 0) == Where(b, k)
  {
  }

  /** One scan step adds the cell at (i, j) exactly when it is of kind k. */
  lemma ScannedStep(b: Board, k: Kind, i: int, j: int)
    requires b.Valid() && 0 <= i < b.rows && 0 <= j < b.cols
    ensures Pos(i, j) !in Scanned(b, k, i, j)
    ensures Scanned(b, k, i, j + 1)
            == Scanned(b, k, i, j) + (if Holds(k, b.cells[i][j]) then {Pos(i, j)} else {})
  {
    var p := Pos(i, j);
    assert b.At(p) == b.cells[i][j];
  }

  lemma ScannedRow(b: Board, k: Kind, i: int)
    requires b.Valid() && 0 <= i
    ensures Scanned(b, k, i, b.cols) == Scanned(b, k, i + 1, 0)
  {
  }

  /** A full board holds rows * cols cells, counted scan position by scan position. */
  lemma {:induction false} ScannedAnyCard(b: Board, i: nat, j: nat)
    requires b.Valid() && ((i < b.rows && j <= b.cols) || (i == b.rows && j == 0))
    ensures |Scanned(b, Any, i, j)| == i * b.cols + j
    decreases i, j
  {
    if j > 0 {
      ScannedAnyCard(b, i, j - 1);
      ScannedStep(b, Any, i, j - 1);
    } else if i > 0 {
      ScannedAnyCard(b, i - 1, b.cols);
      ScannedRow(b, Any, i - 1);
    } else {
      ScannedNone(b, Any);
    }
  }

  lemma AllCellsCard(b: Board)
    requires b.Valid()
    ensures |Where(b, Any)| == b.rows * b.cols
  {
    ScannedAnyCard(b, b.rows, 0);
    ScannedAll(b, Any);
  }

  /** Every cell is a mine or safe, and never both. */
  lemma MinesAndSafeCells(b: Board)
    requires b.Valid()
    ensures |Where(b, Mine)| + |Where(b, Safe)| == b.rows * b.cols
  {
    AllCellsCard(b);
    assert Where(b, Any) == Where(b, Mine) + Where(b, Safe);
    assert Where(b, Mine) * Where(b, Safe) == {};
  }

  /** Only where the mines are decides the mine and safe sets. */
  lemma SameMinesSameSets(a: Board, b: Board)
    requires SameMines(a, b)
    ensures Where(a, Mine) == Where(b, Mine) && Where(a, Safe) == Where(b, Safe)
  {
  }

  // ---------------------------------------------------------------------------
  // Finite-set cardinality facts

  lemma CardSubset<T>(a: set<T>, b: set<T>)
    requires a <= b
    ensures |b - a| == |b| - |a|
    ensures |a| <= |b|
  {
    assert b == a + (b - a);
    assert a * (b - a) == {};
  }

  lemma CardSubsetEq<T>(a: set<T>, b: set<T>)
    requires a <= b && |a| == |b|
    ensures a == b
  {
    CardSubset(a, b);
    assert |b - a| == 0;
  }
}

=== FILE: numbers.dfy ===
/** Neighbour counting: the number every safe cell shows. */
module Numbers {
  import opened Grid

  /** Direction k from p lands on a mine of the board. */
  predicate MineAt(b: Board, p: Pos, k: nat)
    requires b.Valid() && k < |Directions|
  {
    var q := Shift(p, Directions[k]);
    b.InBounds(q) && b.At(q).isMine
  }

  /** The inner loop of the count: the mines seen in directions k, k+1, ... */
  function CountFrom(b: Board, p: Pos, k: nat): (n: nat)
    requires b.Valid() && k <= |Directions|
    ensures n <= |Directions| - k
    decreases |Directions| - k
  {
    if k == |Directions| then 0
    else (if MineAt(b, p, k) then 1 else 0) + CountFrom(b, p, k + 1)
  }

  /** The in-bounds Moore neighbours of p that hold a mine. */
  function MineNeighbours(b: Board, p: Pos): (s: set<Pos>)
    requires b.Valid()
    ensures forall q :: q in s <==> q in Where(b, Mine) && Adjacent(p, q)
  {
    set q | q in Where(b, Mine) && Adjacent(p, q)
  }

  /** The neighbours found through directions k, k+1, ... */
  ghost function Hits(b: Board, p: Pos, k: nat): set<Pos>
    requires b.Valid() && k <= |Directions|
  {
    set i | k <= i < |Directions| && MineAt(b, p, i) :: Shift(p, Directions[i])
  }

  lemma {:induction false} CountFromIsHits(b: Board, p: Pos, k: nat)
    requires b.Valid() && k <= |Directions|
    ensures CountFrom(b, p, k) == |Hits(b, p, k)|
    decreases |Directions| - k
  {
    if k < |Directions| {
      CountFromIsHits(b, p, k + 1);
      DirectionsEnumerateNeighbours(p);
      var here := Shift(p, Directions[k]);
      assert here !in Hits(b, p, k + 1);
      assert Hits(b, p, k) == Hits(b, p, k + 1) + (if MineAt(b, p, k) then {here} else {});
    } else {
      assert Hits(b, p, k) == {};
    }
  }

  /** The direction-by-direction count is the number of mines around p. */
  lemma CountIsMineNeighbours(b: Board, p: Pos)
    requires b.Valid()
    ensures CountFrom(b, p, 0) == |MineNeighbours(b, p)|
  {
    CountFromIsHits(b, p, 0);
    DirectionsEnumerateNeighbours(p);
    forall q | q in MineNeighbours(b, p) ensures q in Hits(b, p, 0) {
      var k :| 0 <= k < |Directions| && Shift(p, Directions[k]) == q;
      assert MineAt(b, p, k);
    }
    assert Hits(b, p, 0) == MineNeighbours(b, p);
  }

  /** A shown count is never more than eight. */
  lemma MineNeighboursAtMostEight(b: Board, p: Pos)
    requires b.Valid()
    ensures |MineNeighbours(b, p)| <= 8
  {
    CountIsMineNeighbours(b, p);
  }

  /** A count of zero means exactly that no in-bounds neighbour is a mine. */
  lemma ZeroMeansNoMineAround(b: Board, p: Pos)
    requires b.Valid()
    ensures |MineNeighbours(b, p)| == 0 <==>
            forall q :: b.InBounds(q) && Adjacent(p, q) ==> !b.At(q).isMine
  {
    if |MineNeighbours(b, p)| != 0 {
      var q :| q in MineNeighbours(b, p);
    }
  }

  /** Every safe cell shows the number of mines around it. */
  ghost predicate Numbered(b: Board) {
    b.Valid() &&
    forall p :: b.InBounds(p) && !b.At(p).isMine ==> b.At(p).mineCount == |MineNeighbours(b, p)|
  }

  /** The mine neighbourhoods depend only on where the mines are. */
  lemma SameMinesSameCounts(a: Board, b: Board, p: Pos)
    requires SameMines(a, b)
    ensures MineNeighbours(a, p) == MineNeighbours(b, p)
    ensures CountFrom(a, p, 0) == CountFrom(b, p, 0)
  {
    SameMinesSameSets(a, b);
    CountIsMineNeighbours(a, p);
    CountIsMineNeighbours(b, p);
  }

  /** Numbering survives any change that leaves mines and counts alone. */
  lemma NumberedKept(a: Board, b: Board)
    requires Numbered(a) && SameMines(a, b)
    requires forall p :: a.InBounds(p) ==> b.At(p).mineCount == a.At(p).mineCount
    ensures Numbered(b)
  {
    forall p | b.InBounds(p) && !b.At(p).isMine
      ensures b.At(p).mineCount == |MineNeighbours(b, p)|
    {
      SameMinesSameCounts(a, b, p);
    }
  }

  /** The cell at p once counted against the mines of b0. */
  function Counted(b0: Board, p: Pos): Cell
    requires b0.Valid() && b0.InBounds(p)
  {
    var x := b0.At(p);
    if x.isMine then x else x.(mineCount := |MineNeighbours(b0, p)|)
  }

  /** Every safe cell gets the number of mines among its in-bounds
      neighbours; mines, reveal and flag state are left alone. */
  method CalculateNumbers(b0: Board) returns (b: Board)
    requires b0.Valid()
    ensures SameMines(b0, b)
    ensures Numbered(b)
    ensures forall p :: b0.InBounds(p) && b0.At(p).isMine ==> b.At(p) == b0.At(p)
    ensures forall p :: b0.InBounds(p) && !b0.At(p).isMine ==>
              b.At(p) == b0.At(p).(mineCount := |MineNeighbours(b0, p)|)
  {
    b := b0;
    var i := 0;
    while i < b0.rows
      invariant 0 <= i <= b0.rows
      invariant SameShape(b0, b)
      invariant forall p :: b0.InBounds(p) ==> b.At(p) == (if Before(p, i, 0) then Counted(b0, p) else b0.At(p))
    {
      b := NumberRow(b0, b, i);
      i := i + 1;
    }
    assert SameMines(b0, b);
    forall p | b.InBounds(p) && !b.At(p).isMine
      ensures b.At(p).mineCount == |MineNeighbours(b, p)|
    {
      SameMinesSameCounts(b0, b, p);
    }
  }

  /** The inner loop over the columns of row i. */
  method NumberRow(b0: Board, b1: Board, i: nat) returns (b: Board)
    requires SameShape(b0, b1) && i < b0.rows
    requires forall p :: b0.InBounds(p) ==> b1.At(p) == (if Before(p, i, 0) then Counted(b0, p) else b0.At(p))
    ensures SameShape(b0, b)
    ensures forall p :: b0.InBounds(p) ==> b.At(p) == (if Before(p, i + 1, 0) then Counted(b0, p) else b0.At(p))
  {
    b := b1;
    var j := 0;
    while j < b0.cols
      invariant 0 <= j <= b0.cols
      invariant SameShape(b0, b)
      invariant forall p :: b0.InBounds(p) ==> b.At(p) == (if Before(p, i, j) then Counted(b0, p) else b0.At(p))
    {
      var p := Pos(i, j);
      if !b.At(p).isMine {
        assert SameMines(b0, b);
        SameMinesSameCounts(b0, b, p);
        CountIsMineNeighbours(b, p);
        var n := CountFrom(b, p, 0);
        b := b.Update(p, b.At(p).(mineCount := n));
      }
      j := j + 1;
    }
  }
}

=== FILE: placement.dfy ===
/** Mine placement: the initial random layout and the first-click re-layout
    that keeps the clipped 3x3 block around the click free of mines.

    The source draws a row and a column uniformly at random and retries when
    the draw is unusable; a retry changes nothing, so each loop iteration here
    is the draw that succeeds, chosen nondeterministically among the cells the
    source would accept. */
module Placement {
  import opened Grid

  /** The nine offsets the re-layout walks around the click: the eight
      directions with (0, 0) in the middle. */
  const ZoneOffsets: seq<(int, int)> :=
    [(-1, -1), (-1, 0), (-1, 1), (0, -1), (0, 0), (0, 1), (1, -1), (1, 0), (1, 1)]

  /** The nine offsets reach exactly the 3x3 block around a position. */
  lemma ZoneOffsetsCoverBlock(p: Pos)
    ensures forall k :: 0 <= k < |ZoneOffsets| ==> Near(p, Shift(p, ZoneOffsets[k]))
    ensures forall q :: Near(p, q) ==> exists k :: 0 <= k < |ZoneOffsets| && Shift(p, ZoneOffsets[k]) == q
  {
    forall q | Near(p, q)
      ensures exists k :: 0 <= k < |ZoneOffsets| && Shift(p, ZoneOffsets[k]) == q
    {
      var d := (q.row - p.row, q.col - p.col);
      assert Shift(p, d) == q;
      var k := 3 * (d.0 + 1) + (d.1 + 1);
      assert ZoneOffsets[k] == d;
    }
  }

  /** The safe zone of the first click: each of the nine offsets from the
      click that lands on the board. */
  function SafeZone(b: Board, click: Pos): (z: set<Pos>)
    requires b.Valid()
    ensures forall q :: q in z <==> b.InBounds(q) && Near(click, q)
  {
    ZoneOffsetsCoverBlock(click);
    set k | 0 <= k < |ZoneOffsets| && b.InBounds(Shift(click, ZoneOffsets[k])) :: Shift(click, ZoneOffsets[k])
  }

  /** The zone never holds more than the nine cells of the full block. */
  lemma SafeZoneAtMostNine(b: Board, click: Pos)
    requires b.Valid()
    ensures |SafeZone(b, click)| <= 9
  {
    var r, c := click.row, click.col;
    var block := {Pos(r - 1, c - 1), Pos(r - 1, c), Pos(r - 1, c + 1),
                  Pos(r, c - 1), Pos(r, c), Pos(r, c + 1),
                  Pos(r + 1, c - 1), Pos(r + 1, c), Pos(r + 1, c + 1)};
    assert SafeZone(b, click) <= block;
    CardSubset(SafeZone(b, click), block);
  }

  /** Every cell with its mine removed (the first step of the re-layout). */
  function ClearMines(b: Board): (b': Board)
    requires b.Valid()
    ensures SameShape(b, b')
    ensures Where(b', Mine) == {}
    ensures forall p :: b.InBounds(p) ==> b'.At(p) == b.At(p).(isMine := false)
  {
    Board(b.rows, b.cols, seq(b.rows, r requires 0 <= r < b.rows =>
      seq(b.cols, c requires 0 <= c < b.cols => b.cells[r][c].(isMine := false))))
  }

  /** b' differs from b at most in where the mines are. */
  ghost predicate OnlyMinesMoved(b: Board, b': Board) {
    SameShape(b, b') && forall p :: b.InBounds(p) ==> b'.At(p) == b.At(p).(isMine := b'.At(p).isMine)
  }

  /** Arming one safe cell adds exactly that cell to the mine set. */
  lemma ArmOne(b: Board, p: Pos)
    requires b.Valid() && p in Where(b, Safe)
    ensures Where(b.Update(p, b.At(p).(isMine := true)), Mine) == Where(b, Mine) + {p}
    ensures Where(b.Update(p, b.At(p).(isMine := true)), Safe) == Where(b, Safe) - {p}
    ensures p !in Where(b, Mine)
  {
  }

  /** The random layout made when a game starts: `mines` further mines on
      cells that had none, all earlier mines kept. The source's loop only ends
      when enough mine-free cells exist, hence the precondition. */
  method PlaceMines(b0: Board, mines: nat) returns (b: Board)
    requires b0.Valid()
    requires |Where(b0, Mine)| + mines <= b0.rows * b0.cols
    ensures OnlyMinesMoved(b0, b)
    ensures Where(b0, Mine) <= Where(b, Mine)
    ensures |Where(b, Mine)| == |Where(b0, Mine)| + mines
  {
    b := b0;
    var placed := 0;
    while placed < mines
      invariant OnlyMinesMoved(b0, b)
      invariant placed <= mines
      invariant Where(b0, Mine) <= Where(b, Mine)
      invariant |Where(b, Mine)| == |Where(b0, Mine)| + placed
      decreases mines - placed
    {
      MinesAndSafeCells(b);
      var p :| p in Where(b, Safe);
      ArmOne(b, p);
      b := b.Update(p, b.At(p).(isMine := true));
      placed := placed + 1;
    }
  }

  /** A board with more than one cell is re-mined from scratch with `mines`
      mines outside the safe zone of the click; the single cell of a 1x1
      board is made a mine instead. The re-layout loop only ends when the
      cells outside the zone can hold all the mines, hence the precondition. */
  method AdjustMines(b0: Board, mines: nat, click: Pos) returns (b: Board)
    requires b0.Valid()
    requires (b0.rows == 1 && b0.cols == 1) || mines <= b0.rows * b0.cols - |SafeZone(b0, click)|
    ensures OnlyMinesMoved(b0, b)
    ensures b0.rows == 1 && b0.cols == 1 ==> b.At(Pos(0, 0)).isMine
    ensures !(b0.rows == 1 && b0.cols == 1) ==> |Where(b, Mine)| == mines
    ensures !(b0.rows == 1 && b0.cols == 1) ==>
              forall q :: b.InBounds(q) && Near(click, q) ==> !b.At(q).isMine
  {
    if b0.rows == 1 && b0.cols == 1 {
      b := b0.Update(Pos(0, 0), b0.At(Pos(0, 0)).(isMine := true));
      return;
    }
    var zone := SafeZone(b0, click);
    var cleared := ClearMines(b0);
    b := PlaceOutside(cleared, mines, zone);
    assert forall q :: b.InBounds(q) && Near(click, q) ==> q in zone;
  }

  /** The re-layout loop: `mines` mines on a mine-free board, none in `zone`. */
  method PlaceOutside(b0: Board, mines: nat, zone: set<Pos>) returns (b: Board)
    requires b0.Valid() && Where(b0, Mine) == {}
    requires zone <= Where(b0, Any)
    requires mines <= b0.rows * b0.cols - |zone|
    ensures OnlyMinesMoved(b0, b)
    ensures |Where(b, Mine)| == mines
    ensures zone <= Where(b, Safe)
  {
    b := b0;
    var placed := 0;
    assert Where(b, Safe) == Where(b, Any);
    while placed < mines
      invariant OnlyMinesMoved(b0, b)
      invariant placed <= mines
      invariant |Where(b, Mine)| == placed
      invariant zone <= Where(b, Safe)
      decreases mines - placed
    {
      RoomOutside(b, zone);
      var p :| p in Where(b, Safe) - zone;
      b := ArmOutside(b0, b, zone, p);
      placed := placed + 1;
    }
  }

  /** While fewer than rows * cols - |zone| mines are down, a usable cell exists. */
  lemma RoomOutside(b: Board, zone: set<Pos>)
    requires b.Valid() && zone <= Where(b, Safe)
    ensures |Where(b, Safe) - zone| == b.rows * b.cols - |Where(b, Mine)| - |zone|
  {
    MinesAndSafeCells(b);
    CardSubset(zone, Where(b, Safe));
  }

  /** One successful draw of the re-layout loop. */
  function ArmOutside(b0: Board, b: Board, zone: set<Pos>, p: Pos): (next: Board)
    requires OnlyMinesMoved(b0, b) && zone <= Where(b, Safe)
    requires p in Where(b, Safe) - zone
    ensures OnlyMinesMoved(b0, next)
    ensures |Where(next, Mine)| == |Where(b, Mine)| + 1
    ensures zone <= Where(next, Safe)
  {
    ArmOne(b, p);
    b.Update(p, b.At(p).(isMine := true))
  }
}

=== FILE: play.dfy ===
/** Playing a game: a click with its cascade through zero cells, the win
    check, the flag toggle, and the first click that lays out the mines. */
module Play {
  import opened Grid
  import opened Numbers
  import opened Placement
  import opened Flood

  datatype Status = Playing | Won | Lost

  /** One play-through: the board, the configured number of mines, whether
      the next click is the first, whether this is the 1x1 hell preset, and
      how the game stands. Won and Lost stand for the end-of-game announcements
      the page makes. */
  datatype Game = Game(board: Board, mines: nat, firstClick: bool, hell: bool, status: Status)

  // ---------------------------------------------------------------------------
  // Win check

  /** The win condition: as many cells revealed as there are safe cells
      according to the configured mine count. */
  predicate WinReached(b: Board, mines: nat)
    requires b.Valid()
  {
    |Where(b, Revealed)| == b.rows * b.cols - mines
  }

  /** No open cell holds a mine. */
  ghost predicate NoOpenMine(b: Board)
    requires b.Valid()
  {
    forall q :: b.InBounds(q) && b.At(q).isRevealed ==> !b.At(q).isMine
  }

  /** Counts the revealed cells row by row. */
  method CountRevealed(b: Board) returns (n: nat)
    requires b.Valid()
    ensures n == |Where(b, Revealed)|
  {
    n := 0;
    var i := 0;
    ScannedNone(b, Revealed);
    while i < b.rows
      invariant 0 <= i <= b.rows
      invariant n == |Scanned(b, Revealed, i, 0)|
    {
      var j := 0;
      while j < b.cols
        invariant 0 <= j <= b.cols
        invariant n == |Scanned(b, Revealed, i, j)|
      {
        ScannedStep(b, Revealed, i, j);
        if b.cells[i][j].isRevealed {
          n := n + 1;
        }
        j := j + 1;
      }
      ScannedRow(b, Revealed, i);
      i := i + 1;
    }
    ScannedAll(b, Revealed);
  }

  /** The game is won exactly when the revealed cells number rows*cols - mines. */
  method CheckWin(b: Board, mines: nat) returns (won: bool)
    requires b.Valid()
    ensures won <==> WinReached(b, mines)
  {
    var revealed := CountRevealed(b);
    won := revealed == b.rows * b.cols - mines;
  }

  /** When the board really holds `mines` mines and no mine is open, the win
      condition holds exactly when every safe cell is revealed. */
  lemma WinMeansAllSafeRevealed(b: Board, mines: nat)
    requires b.Valid() && |Where(b, Mine)| == mines
    requires NoOpenMine(b)
    ensures WinReached(b, mines) <==> Where(b, Safe) <= Where(b, Revealed)
  {
    MinesAndSafeCells(b);
    assert Where(b, Revealed) <= Where(b, Safe);
    CardSubset(Where(b, Revealed), Where(b, Safe));
    if WinReached(b, mines) {
      CardSubsetEq(Where(b, Revealed), Where(b, Safe));
    }
    if Where(b, Safe) <= Where(b, Revealed) {
      assert Where(b, Safe) == Where(b, Revealed);
    }
  }

  // ---------------------------------------------------------------------------
  // A click and its cascade

  /** A cell as the click path reveals it (a flagged cell never gets here). */
  function Show(b: Board, p: Pos): (b': Board)
    requires b.Valid() && b.InBounds(p) && !b.At(p).isRevealed
    ensures SameShape(b, b') && b'.At(p).isRevealed
    ensures Where(b', Hidden) == Where(b, Hidden) - {p}
    ensures forall q :: b.InBounds(q) && q != p ==> b'.At(q) == b.At(q)
    ensures b'.At(p) == b.At(p).(isRevealed := true)
  {
    b.Update(p, b.At(p).(isRevealed := true))
  }

  /** b' arises from b by revealing cells and nothing else. */
  ghost predicate OnlyRevealed(b: Board, b': Board) {
    SameShape(b, b') &&
    forall p :: b.InBounds(p) ==>
      b'.At(p) == b.At(p) || (b'.At(p) == b.At(p).(isRevealed := true) && !b.At(p).isRevealed)
  }

  lemma OnlyRevealedTrans(a: Board, b: Board, c: Board)
    requires OnlyRevealed(a, b) && OnlyRevealed(b, c)
    ensures OnlyRevealed(a, c)
  {
  }

  lemma OnlyRevealedHides(b: Board, b': Board)
    requires OnlyRevealed(b, b')
    ensures Where(b', Hidden) <= Where(b, Hidden)
    ensures |Where(b', Hidden)| <= |Where(b, Hidden)|
  {
    CardSubset(Where(b', Hidden), Where(b, Hidden));
  }

  /** handleCellClick after the first-click set-up: a revealed or flagged
      cell is left alone; otherwise the cell is revealed, a mine loses the
      game, and a safe cell showing zero clicks its hidden neighbours before
      the win check runs. */
  function Click(g: Game, p: Pos): (g': Game)
    requires g.board.Valid() && g.board.InBounds(p)
    ensures OnlyRevealed(g.board, g'.board)
    ensures |Where(g'.board, Hidden)| <= |Where(g.board, Hidden)|
    ensures g'.mines == g.mines && g'.firstClick == g.firstClick && g'.hell == g.hell
    ensures g.board.At(p).isRevealed || g.board.At(p).flagged ==> g' == g
    ensures !g.board.At(p).isRevealed && !g.board.At(p).flagged ==> g'.board.At(p).isRevealed
    ensures !g.board.At(p).isRevealed && !g.board.At(p).flagged && g.board.At(p).isMine ==>
              g' == g.(board := Show(g.board, p), status := Lost)
    ensures !g.board.At(p).isRevealed && !g.board.At(p).flagged && g'.status == Playing ==>
              !WinReached(g'.board, g'.mines)
    decreases |Where(g.board, Hidden)|, 0, 0
  {
    var b := g.board;
    if b.At(p).isRevealed || b.At(p).flagged then g
    else
      var g1 := g.(board := Show(b, p));
      if b.At(p).isMine then g1.(status := Lost)
      else
        var g2 := if b.At(p).mineCount == 0 then RevealAdjacent(g1, p, 0) else g1;
        OnlyRevealedTrans(b, g1.board, g2.board);
        OnlyRevealedHides(g1.board, g2.board);
        if WinReached(g2.board, g2.mines) then g2.(status := Won) else g2
  }

  /** revealAdjacentCells from direction k on: each in-bounds neighbour that
      is still hidden at its turn is clicked. */
  function RevealAdjacent(g: Game, p: Pos, k: nat): (g': Game)
    requires g.board.Valid() && k <= |Directions|
    ensures OnlyRevealed(g.board, g'.board)
    ensures |Where(g'.board, Hidden)| <= |Where(g.board, Hidden)|
    ensures g'.mines == g.mines && g'.firstClick == g.firstClick && g'.hell == g.hell
    decreases |Where(g.board, Hidden)|, 1, |Directions| - k
  {
    if k == |Directions| then g
    else
      var q := Shift(p, Directions[k]);
      var g1 := if g.board.InBounds(q) && !g.board.At(q).isRevealed then Click(g, q) else g;
      var g2 := RevealAdjacent(g1, p, k + 1);
      OnlyRevealedTrans(g.board, g1.board, g2.board);
      g2
  }

  // ---------------------------------------------------------------------------
  // The cascade on a correctly numbered board

  /** No cell that b' reveals beyond b is a mine. */
  ghost predicate NoMineOpened(b: Board, b': Board)
    requires SameShape(b, b')
  {
    forall q :: b.InBounds(q) && !b.At(q).isRevealed && b'.At(q).isRevealed ==> !b'.At(q).isMine
  }

  /** Every newly revealed safe cell showing zero has each in-bounds
      neighbour revealed or flagged. */
  ghost predicate ZeroCellsSettled(b: Board, b': Board)
    requires SameShape(b, b')
  {
    forall n, q ::
      (b.InBounds(n) && !b.At(n).isRevealed && b'.At(n).isRevealed && !b'.At(n).isMine &&
       b'.At(n).mineCount == 0 && b.InBounds(q) && Adjacent(n, q))
      ==> b'.At(q).isRevealed || b'.At(q).flagged
  }

  lemma NoMineOpenedTrans(a: Board, b: Board, c: Board)
    requires OnlyRevealed(a, b) && OnlyRevealed(b, c)
    requires NoMineOpened(a, b) && NoMineOpened(b, c)
    ensures NoMineOpened(a, c)
  {
  }

  lemma ZeroCellsSettledTrans(a: Board, b: Board, c: Board)
    requires OnlyRevealed(a, b) && OnlyRevealed(b, c)
    requires ZeroCellsSettled(a, b) && ZeroCellsSettled(b, c)
    ensures ZeroCellsSettled(a, c)
  {
    forall n, q | a.InBounds(n) && !a.At(n).isRevealed && c.At(n).isRevealed && !c.At(n).isMine &&
                  c.At(n).mineCount == 0 && a.InBounds(q) && Adjacent(n, q)
      ensures c.At(q).isRevealed || c.At(q).flagged
    {
      if b.At(n).isRevealed {
        assert b.At(q).isRevealed || b.At(q).flagged;
      }
    }
  }

  /** q, when on the board, is revealed or flagged. */
  predicate ShownOrFlagged(b: Board, q: Pos)
    requires b.Valid()
  {
    b.InBounds(q) ==> b.At(q).isRevealed || b.At(q).flagged
  }

  /** Every neighbour of p through directions k, k+1, ... is revealed or flagged. */
  ghost predicate DirectionsSettled(b: Board, p: Pos, k: nat)
    requires b.Valid()
  {
    forall i :: k <= i < |Directions| ==> ShownOrFlagged(b, Shift(p, Directions[i]))
  }

  /** On a correctly numbered board a click on a hidden, unflagged safe cell
      never loses: its cascade only reveals safe cells, and every zero cell it
      reveals ends with all its neighbours revealed or flagged. */
  lemma {:induction false} ClickOnSafeCell(g: Game, p: Pos)
    requires Numbered(g.board) && g.board.InBounds(p) && !g.board.At(p).isMine
    requires g.status != Lost
    ensures Click(g, p).status != Lost
    ensures NoMineOpened(g.board, Click(g, p).board)
    ensures ZeroCellsSettled(g.board, Click(g, p).board)
    decreases |Where(g.board, Hidden)|, 0, 1, 0
  {
    var b := g.board;
    if !(b.At(p).isRevealed || b.At(p).flagged) {
      if b.At(p).mineCount == 0 {
        ClickOnZeroCell(g, p);
      } else {
        var g1 := g.(board := Show(b, p));
        ShowSafeCell(b, p);
        assert Click(g, p) == if WinReached(g1.board, g1.mines) then g1.(status := Won) else g1;
      }
    }
  }

  /** Revealing one hidden safe cell opens no mine and, when its count is not
      zero, leaves no zero cell unsettled. */
  lemma ShowSafeCell(b: Board, p: Pos)
    requires b.Valid() && b.InBounds(p) && !b.At(p).isRevealed && !b.At(p).isMine
    ensures OnlyRevealed(b, Show(b, p)) && NoMineOpened(b, Show(b, p))
    ensures b.At(p).mineCount != 0 ==> ZeroCellsSettled(b, Show(b, p))
  {
  }

  /** The zero-cell case of ClickOnSafeCell: the cascade does the work. */
  lemma {:induction false} ClickOnZeroCell(g: Game, p: Pos)
    requires Numbered(g.board) && g.board.InBounds(p) && !g.board.At(p).isMine
    requires g.status != Lost
    requires !g.board.At(p).isRevealed && !g.board.At(p).flagged && g.board.At(p).mineCount == 0
    ensures Click(g, p).status != Lost
    ensures NoMineOpened(g.board, Click(g, p).board)
    ensures ZeroCellsSettled(g.board, Click(g, p).board)
    decreases |Where(g.board, Hidden)|, 0, 0, 0
  {
    var b := g.board;
    var g1 := g.(board := Show(b, p));
    ShowSafeCell(b, p);
    assert Numbered(g1.board) by {
      NumberedKept(b, g1.board);
    }
    var g2 := RevealAdjacent(g1, p, 0);
    assert g2.status != Lost && NoMineOpened(g1.board, g2.board) && ZeroCellsSettled(g1.board, g2.board)
        && forall q :: b.InBounds(q) && Adjacent(p, q) ==> g2.board.At(q).isRevealed || g2.board.At(q).flagged
    by {
      CascadeFromZero(g1, p, 0);
      DirectionsEnumerateNeighbours(p);
      forall q | b.InBounds(q) && Adjacent(p, q)
        ensures g2.board.At(q).isRevealed || g2.board.At(q).flagged
      {
        var i :| 0 <= i < |Directions| && Shift(p, Directions[i]) == q;
        assert ShownOrFlagged(g2.board, Shift(p, Directions[i]));
      }
    }
    assert NoMineOpened(b, g2.board) by {
      NoMineOpenedTrans(b, g1.board, g2.board);
    }
    assert ZeroCellsSettled(b, g2.board) by {
      SettledAfterZero(b, g1.board, g2.board, p);
    }
    assert Click(g, p) == if WinReached(g2.board, g2.mines) then g2.(status := Won) else g2;
  }

  /** Gluing the settled-zero facts of a click on zero cell p: p's own
      neighbours are handled by the cascade, the rest by its clicks. */
  lemma SettledAfterZero(b: Board, b1: Board, b2: Board, p: Pos)
    requires OnlyRevealed(b, b1) && OnlyRevealed(b1, b2) && b.InBounds(p)
    requires forall q :: b.InBounds(q) && q != p ==> b1.At(q) == b.At(q)
    requires ZeroCellsSettled(b1, b2)
    requires forall q :: b.InBounds(q) && Adjacent(p, q) ==> b2.At(q).isRevealed || b2.At(q).flagged
    ensures ZeroCellsSettled(b, b2)
  {
  }

  /** A revealed or flagged cell stays so under further reveals. */
  lemma OnlyRevealedKeepsShown(b: Board, b': Board, q: Pos)
    requires OnlyRevealed(b, b') && b.InBounds(q)
    ensures b.At(q).isRevealed ==> b'.At(q).isRevealed
    ensures b'.At(q).flagged == b.At(q).flagged
  {
  }

  /** One turn of revealAdjacentCells: the neighbour in direction k is
      clicked when it is on the board and still hidden. */
  function Turn(g: Game, p: Pos, k: nat): (g': Game)
    requires g.board.Valid() && k < |Directions|
    ensures OnlyRevealed(g.board, g'.board)
    ensures RevealAdjacent(g, p, k) == RevealAdjacent(g', p, k + 1)
  {
    var q := Shift(p, Directions[k]);
    if g.board.InBounds(q) && !g.board.At(q).isRevealed then Click(g, q) else g
  }

  /** The cascade around a zero cell p: every neighbour is safe, so clicking
      the hidden ones never loses, and afterwards each neighbour from
      direction k on is revealed or flagged. */
  lemma {:induction false} CascadeFromZero(g: Game, p: Pos, k: nat)
    requires Numbered(g.board) && g.board.InBounds(p) && k <= |Directions|
    requires !g.board.At(p).isMine && g.board.At(p).mineCount == 0
    requires g.status != Lost
    ensures RevealAdjacent(g, p, k).status != Lost
    ensures NoMineOpened(g.board, RevealAdjacent(g, p, k).board)
    ensures ZeroCellsSettled(g.board, RevealAdjacent(g, p, k).board)
    ensures DirectionsSettled(RevealAdjacent(g, p, k).board, p, k)
    decreases |Where(g.board, Hidden)|, 2, |Directions| - k, 1
  {
    if k < |Directions| {
      CascadeStep(g, p, k);
    } else {
      assert RevealAdjacent(g, p, k) == g;
    }
  }

  /** The inductive step of CascadeFromZero: the turn in direction k, then
      the remaining directions. */
  lemma {:induction false} CascadeStep(g: Game, p: Pos, k: nat)
    requires Numbered(g.board) && g.board.InBounds(p) && k < |Directions|
    requires !g.board.At(p).isMine && g.board.At(p).mineCount == 0
    requires g.status != Lost
    ensures RevealAdjacent(g, p, k).status != Lost
    ensures NoMineOpened(g.board, RevealAdjacent(g, p, k).board)
    ensures ZeroCellsSettled(g.board, RevealAdjacent(g, p, k).board)
    ensures DirectionsSettled(RevealAdjacent(g, p, k).board, p, k)
    decreases |Where(g.board, Hidden)|, 2, |Directions| - k, 0
  {
    var g1 := Turn(g, p, k);
    CascadeHead(g, p, k);
    OnlyRevealedHides(g.board, g1.board);
    CascadeFromZero(g1, p, k + 1);
    CascadeGlue(g.board, g1.board, RevealAdjacent(g1, p, k + 1).board, p, k);
  }

  /** One turn of the cascade: the neighbour in direction k, clicked when
      still hidden, opens no mine and ends revealed or flagged. */
  lemma {:induction false} CascadeHead(g: Game, p: Pos, k: nat)
    requires Numbered(g.board) && g.board.InBounds(p) && k < |Directions|
    requires !g.board.At(p).isMine && g.board.At(p).mineCount == 0
    requires g.status != Lost
    ensures Turn(g, p, k).status != Lost
    ensures NoMineOpened(g.board, Turn(g, p, k).board)
    ensures ZeroCellsSettled(g.board, Turn(g, p, k).board)
    ensures ShownOrFlagged(Turn(g, p, k).board, Shift(p, Directions[k]))
    ensures Numbered(Turn(g, p, k).board)
    ensures !Turn(g, p, k).board.At(p).isMine && Turn(g, p, k).board.At(p).mineCount == 0
    decreases |Where(g.board, Hidden)|, 1, |Directions| - k, 0
  {
    var b := g.board;
    var q := Shift(p, Directions[k]);
    var g1 := Turn(g, p, k);
    if b.InBounds(q) && !b.At(q).isRevealed {
      assert !b.At(q).isMine by {
        DirectionsEnumerateNeighbours(p);
        ZeroMeansNoMineAround(b, p);
      }
      ClickOnSafeCell(g, q);
    }
    RevealKeepsNumbered(b, g1.board);
  }

  /** Revealing cells changes no mine and no count. */
  lemma RevealKeepsNumbered(b: Board, b': Board)
    requires Numbered(b) && OnlyRevealed(b, b')
    ensures Numbered(b')
  {
    NumberedKept(b, b');
  }

  /** Gluing one turn of the cascade to the turns after it. */
  lemma CascadeGlue(b: Board, b1: Board, b2: Board, p: Pos, k: nat)
    requires b.Valid() && k < |Directions|
    requires OnlyRevealed(b, b1) && OnlyRevealed(b1, b2)
    requires NoMineOpened(b, b1) && NoMineOpened(b1, b2)
    requires ZeroCellsSettled(b, b1) && ZeroCellsSettled(b1, b2)
    requires ShownOrFlagged(b1, Shift(p, Directions[k])) && DirectionsSettled(b2, p, k + 1)
    ensures NoMineOpened(b, b2) && ZeroCellsSettled(b, b2) && DirectionsSettled(b2, p, k)
  {
    NoMineOpenedTrans(b, b1, b2);
    ZeroCellsSettledTrans(b, b1, b2);
    var q := Shift(p, Directions[k]);
    if b.InBounds(q) {
      OnlyRevealedKeepsShown(b1, b2, q);
    }
    forall i | k <= i < |Directions| ensures ShownOrFlagged(b2, Shift(p, Directions[i])) {
      if i == k {
        assert Shift(p, Directions[i]) == q;
      }
    }
  }

  // ---------------------------------------------------------------------------
  // How far a click reaches

  /** Revealing cells keeps a region closed under the neighbours of its safe
      zero cells: that depends only on mines and counts. */
  lemma ZeroClosedKept(b: Board, b': Board, region: set<Pos>)
    requires OnlyRevealed(b, b') && ZeroClosed(b, region)
    ensures ZeroClosed(b', region)
  {
  }

  /** A click opens nothing outside a region that holds the clicked cell and
      every neighbour of its safe cells showing zero: a cell with a non-zero
      count opens alone, and the cascade only spreads through zero cells. */
  lemma {:induction false} ClickWithinRegion(g: Game, p: Pos, region: set<Pos>)
    requires g.board.Valid() && g.board.InBounds(p) && p in region && ZeroClosed(g.board, region)
    ensures OpensWithin(g.board, Click(g, p).board, region)
    decreases |Where(g.board, Hidden)|, 0, 0, 1
  {
    var b := g.board;
    if !(b.At(p).isRevealed || b.At(p).flagged) && !b.At(p).isMine {
      if b.At(p).mineCount == 0 {
        ClickZeroWithinRegion(g, p, region);
      } else {
        var g1 := g.(board := Show(b, p));
        ShowWithinRegion(b, p, region);
        assert Click(g, p) == if WinReached(g1.board, g1.mines) then g1.(status := Won) else g1;
      }
    }
  }

  /** A click on a hidden safe zero cell of the region: the cell opens, then
      the cascade around it, both inside the region. */
  lemma {:induction false} ClickZeroWithinRegion(g: Game, p: Pos, region: set<Pos>)
    requires g.board.Valid() && g.board.InBounds(p) && p in region && ZeroClosed(g.board, region)
    requires !g.board.At(p).isRevealed && !g.board.At(p).flagged
    requires !g.board.At(p).isMine && g.board.At(p).mineCount == 0
    ensures OpensWithin(g.board, Click(g, p).board, region)
    decreases |Where(g.board, Hidden)|, 0, 0, 0
  {
    var b := g.board;
    var g1 := g.(board := Show(b, p));
    ShowWithinRegion(b, p, region);
    var g2 := RevealAdjacent(g1, p, 0);
    RevealAdjacentWithinRegion(g1, p, 0, region);
    OpensWithinTrans(b, g1.board, g2.board, region);
    assert Click(g, p) == if WinReached(g2.board, g2.mines) then g2.(status := Won) else g2;
  }

  /** A click on a mine or on a cell with a non-zero count opens that cell
      and nothing else. */
  lemma ClickOpensOnlyItself(g: Game, p: Pos)
    requires g.board.Valid() && g.board.InBounds(p)
    requires g.board.At(p).isMine || g.board.At(p).mineCount != 0
    ensures forall q :: NewlyOpened(g.board, Click(g, p).board, q) ==> q == p
  {
    ClickWithinRegion(g, p, {p});
  }

  /** Revealing the clicked cell opens only that cell. */
  lemma ShowWithinRegion(b: Board, p: Pos, region: set<Pos>)
    requires b.Valid() && b.InBounds(p) && !b.At(p).isRevealed && p in region && ZeroClosed(b, region)
    ensures OnlyRevealed(b, Show(b, p)) && OpensWithin(b, Show(b, p), region)
    ensures ZeroClosed(Show(b, p), region)
  {
    ZeroClosedKept(b, Show(b, p), region);
  }

  /** The cascade around a safe zero cell of the region stays in the region. */
  lemma {:induction false} RevealAdjacentWithinRegion(g: Game, p: Pos, k: nat, region: set<Pos>)
    requires g.board.Valid() && k <= |Directions| && ZeroClosed(g.board, region)
    requires g.board.InBounds(p) && p in region && !g.board.At(p).isMine && g.board.At(p).mineCount == 0
    ensures OpensWithin(g.board, RevealAdjacent(g, p, k).board, region)
    decreases |Where(g.board, Hidden)|, 1, |Directions| - k, 2
  {
    if k < |Directions| {
      RevealAdjacentWithinRegionStep(g, p, k, region);
    } else {
      assert RevealAdjacent(g, p, k) == g;
    }
  }

  lemma {:induction false} RevealAdjacentWithinRegionStep(g: Game, p: Pos, k: nat, region: set<Pos>)
    requires g.board.Valid() && k < |Directions| && ZeroClosed(g.board, region)
    requires g.board.InBounds(p) && p in region && !g.board.At(p).isMine && g.board.At(p).mineCount == 0
    ensures OpensWithin(g.board, RevealAdjacent(g, p, k).board, region)
    decreases |Where(g.board, Hidden)|, 1, |Directions| - k, 1
  {
    var g1 := Turn(g, p, k);
    TurnWithinRegion(g, p, k, region);
    OnlyRevealedHides(g.board, g1.board);
    RevealAdjacentWithinRegion(g1, p, k + 1, region);
    OpensWithinTrans(g.board, g1.board, RevealAdjacent(g1, p, k + 1).board, region);
  }

  /** One turn of the cascade clicks a neighbour of p, which the region
      holds; afterwards p is still a safe zero cell and the region still
      closed. */
  lemma {:induction false} TurnWithinRegion(g: Game, p: Pos, k: nat, region: set<Pos>)
    requires g.board.Valid() && k < |Directions| && ZeroClosed(g.board, region)
    requires g.board.InBounds(p) && p in region && !g.board.At(p).isMine && g.board.At(p).mineCount == 0
    ensures OpensWithin(g.board, Turn(g, p, k).board, region)
    ensures ZeroClosed(Turn(g, p, k).board, region)
    ensures !Turn(g, p, k).board.At(p).isMine && Turn(g, p, k).board.At(p).mineCount == 0
    decreases |Where(g.board, Hidden)|, 1, |Directions| - k, 0
  {
    var q := Shift(p, Directions[k]);
    if g.board.InBounds(q) && !g.board.At(q).isRevealed {
      assert q in region by {
        DirectionsEnumerateNeighbours(p);
      }
      ClickWithinRegion(g, q, region);
    }
    ZeroClosedKept(g.board, Turn(g, p, k).board, region);
  }

  /** Every cell b' opens beyond b lies in the region. */
  ghost predicate OpensWithin(b: Board, b': Board, region: set<Pos>)
  {
    SameShape(b, b') && forall q :: NewlyOpened(b, b', q) ==> q in region
  }

  lemma OpensWithinTrans(b: Board, b1: Board, b2: Board, region: set<Pos>)
    requires OnlyRevealed(b, b1) && OnlyRevealed(b1, b2)
    requires OpensWithin(b, b1, region) && OpensWithin(b1, b2, region)
    ensures OpensWithin(b, b2, region)
  {
    forall r | NewlyOpened(b, b2, r) ensures r in region {
      assert NewlyOpened(b, b1, r) || NewlyOpened(b1, b2, r);
    }
  }

  // ---------------------------------------------------------------------------
  // The win check inside the cascade

  /** A won game has at least as many revealed cells as the win test asks for. */
  predicate WonCounted(g: Game)
    requires g.board.Valid()
  {
    g.status == Won ==> |Where(g.board, Revealed)| >= g.board.rows * g.board.cols - g.mines
  }

  lemma WonCountedKept(g: Game, g': Game)
    requires g.board.Valid() && OnlyRevealed(g.board, g'.board)
    requires g'.mines == g.mines && g'.status == g.status && WonCounted(g)
    ensures WonCounted(g')
  {
    assert Where(g.board, Revealed) <= Where(g'.board, Revealed);
    CardSubset(Where(g.board, Revealed), Where(g'.board, Revealed));
  }

  /** Revealing cells moves no mine. */
  lemma RevealKeepsMines(b: Board, b': Board)
    requires OnlyRevealed(b, b')
    ensures SameMines(b, b') && Where(b', Mine) == Where(b, Mine)
  {
    assert SameMines(b, b');
    SameMinesSameSets(b, b');
  }

  /** A status of Won, once set inside a cascade, stays backed by the
      revealed count: later clicks only reveal more. */
  lemma {:induction false} ClickWonCounted(g: Game, p: Pos)
    requires g.board.Valid() && g.board.InBounds(p) && WonCounted(g)
    ensures WonCounted(Click(g, p))
    decreases |Where(g.board, Hidden)|, 0, 0, 0
  {
    var b := g.board;
    if !(b.At(p).isRevealed || b.At(p).flagged) && !b.At(p).isMine {
      var g1 := g.(board := Show(b, p));
      WonCountedKept(g, g1);
      var g2 := if b.At(p).mineCount == 0 then RevealAdjacent(g1, p, 0) else g1;
      if b.At(p).mineCount == 0 {
        RevealAdjacentWonCounted(g1, p, 0);
      }
      assert Click(g, p) == if WinReached(g2.board, g2.mines) then g2.(status := Won) else g2;
    }
  }

  lemma {:induction false} RevealAdjacentWonCounted(g: Game, p: Pos, k: nat)
    requires g.board.Valid() && k <= |Directions| && WonCounted(g)
    ensures WonCounted(RevealAdjacent(g, p, k))
    decreases |Where(g.board, Hidden)|, 1, |Directions| - k, 1
  {
    if k < |Directions| {
      RevealAdjacentWonCountedStep(g, p, k);
    } else {
      assert RevealAdjacent(g, p, k) == g;
    }
  }

  lemma {:induction false} RevealAdjacentWonCountedStep(g: Game, p: Pos, k: nat)
    requires g.board.Valid() && k < |Directions| && WonCounted(g)
    ensures WonCounted(RevealAdjacent(g, p, k))
    decreases |Where(g.board, Hidden)|, 1, |Directions| - k, 0
  {
    var g1 := Turn(g, p, k);
    assert WonCounted(g1) by {
      var q := Shift(p, Directions[k]);
      if g.board.InBounds(q) && !g.board.At(q).isRevealed {
        ClickWonCounted(g, q);
        assert g1 == Click(g, q);
      } else {
        assert g1 == g;
      }
    }
    OnlyRevealedHides(g.board, g1.board);
    RevealAdjacentWonCounted(g1, p, k + 1);
  }

  /** The last step of a click on a hidden safe cell is the win check. */
  lemma ClickChecksWin(g: Game, p: Pos)
    requires g.board.Valid() && g.board.InBounds(p)
    requires !g.board.At(p).isRevealed && !g.board.At(p).flagged && !g.board.At(p).isMine
    ensures WinReached(Click(g, p).board, g.mines) ==> Click(g, p).status == Won
  {
    var b := g.board;
    var g1 := g.(board := Show(b, p));
    var g2 := if b.At(p).mineCount == 0 then RevealAdjacent(g1, p, 0) else g1;
    assert Click(g, p) == if WinReached(g2.board, g2.mines) then g2.(status := Won) else g2;
  }

  /** On a correctly numbered board holding exactly `mines` mines, none of
      them open, a click on a hidden safe cell of a game in play ends won
      exactly when the win test holds, and never lost. */
  lemma ClickWinExact(g: Game, p: Pos)
    requires Numbered(g.board) && g.board.InBounds(p)
    requires !g.board.At(p).isRevealed && !g.board.At(p).flagged && !g.board.At(p).isMine
    requires g.status == Playing && |Where(g.board, Mine)| == g.mines
    requires NoOpenMine(g.board)
    ensures Click(g, p).status == Won || Click(g, p).status == Playing
    ensures Click(g, p).status == Won <==> WinReached(Click(g, p).board, g.mines)
  {
    var b := g.board;
    var r := Click(g, p);
    assert r.status != Lost && NoMineOpened(b, r.board) by {
      ClickOnSafeCell(g, p);
    }
    assert WonCounted(r) by {
      ClickWonCounted(g, p);
    }
    assert WinReached(r.board, g.mines) ==> r.status == Won by {
      ClickChecksWin(g, p);
    }
    RevealedWithinSafe(b, r.board, g.mines);
  }

  /** When revealing opens no mine on a board whose open cells are all safe,
      the open cells stay within the safe ones, so they number at most
      rows*cols - mines. */
  lemma RevealedWithinSafe(b: Board, b': Board, mines: nat)
    requires OnlyRevealed(b, b') && NoMineOpened(b, b') && |Where(b, Mine)| == mines
    requires NoOpenMine(b)
    ensures |Where(b', Revealed)| <= b.rows * b.cols - mines
  {
    RevealKeepsMines(b, b');
    MinesAndSafeCells(b');
    forall q | q in Where(b', Revealed)
      ensures q in Where(b', Safe)
    {
      assert b'.At(q).isMine == b.At(q).isMine;
    }
    CardSubset(Where(b', Revealed), Where(b', Safe));
  }

  // ---------------------------------------------------------------------------
  // Flags

  /** handleLongPress: in hell mode it sets off the mine; a revealed cell is
      ignored; otherwise the cell's flag is flipped. */
  function LongPress(g: Game, p: Pos): (g': Game)
    requires g.board.Valid() && g.board.InBounds(p)
    ensures g.hell ==> g' == g.(status := Lost)
    ensures !g.hell && g.board.At(p).isRevealed ==> g' == g
    ensures !g.hell && !g.board.At(p).isRevealed ==>
              g' == g.(board := g.board.Update(p, g.board.At(p).(flagged := !g.board.At(p).flagged)))
    ensures g'.board.Valid() && Where(g'.board, Revealed) == Where(g.board, Revealed)
  {
    if g.hell then g.(status := Lost)
    else if g.board.At(p).isRevealed then g
    else g.(board := g.board.Update(p, g.board.At(p).(flagged := !g.board.At(p).flagged)))
  }

  /** Outside hell mode two long presses on the same cell undo each other. */
  lemma LongPressTwice(g: Game, p: Pos)
    requires g.board.Valid() && g.board.InBounds(p) && !g.hell
    ensures LongPress(LongPress(g, p), p) == g
  {
    var b := g.board;
    if !b.At(p).isRevealed {
      var b1 := b.Update(p, b.At(p).(flagged := !b.At(p).flagged));
      var b2 := b1.Update(p, b1.At(p).(flagged := !b1.At(p).flagged));
      assert b2.cells[p.row] == b.cells[p.row];
      assert b2.cells == b.cells;
    }
  }

  // ---------------------------------------------------------------------------
  // The click handler

  /** What the first click needs of the game for its re-layout loop to end. */
  predicate FirstClickFits(g: Game, p: Pos)
    requires g.board.Valid()
  {
    IsFirstSafeClick(g) ==> g.mines <= g.board.rows * g.board.cols - |SafeZone(g.board, p)|
  }

  predicate IsFirstSafeClick(g: Game)
  {
    g.firstClick && !g.hell && g.status == Playing && !(g.board.rows == 1 && g.board.cols == 1)
  }

  /** The first-click set-up on a board of more than one cell: re-lay the
      mines away from p, number the cells, flood-fill from p. */
  method FirstClickSetUp(b0: Board, mines: nat, p: Pos) returns (b: Board, ghost order: seq<Pos>)
    requires b0.Valid() && b0.InBounds(p) && !(b0.rows == 1 && b0.cols == 1)
    requires mines <= b0.rows * b0.cols - |SafeZone(b0, p)|
    ensures SameShape(b0, b) && Numbered(b)
    ensures |Where(b, Mine)| == mines
    ensures forall q :: b.InBounds(q) && Near(p, q) ==> !b.At(q).isMine
    ensures b.At(p).isRevealed && b.At(p).mineCount == 0
    ensures NoMineOpened(b0, b)
    ensures forall q :: b.InBounds(q) && b.At(q).isRevealed && !b0.At(q).isRevealed ==> !b.At(q).flagged
    ensures forall q :: b.InBounds(q) && b0.At(q).isRevealed ==> b.At(q).isRevealed
    ensures forall n, q ::
              (b0.InBounds(n) && !b0.At(n).isRevealed && b.At(n).isRevealed && b.At(n).mineCount == 0 &&
               b.InBounds(q) && Adjacent(n, q))
              ==> b.At(q).isRevealed || b.At(q).isMine
    ensures FloodOrder(b0, b, p, order)
    ensures forall q :: b0.InBounds(q) && !NewlyOpened(b0, b, q) ==>
              b.At(q).isRevealed == b0.At(q).isRevealed && b.At(q).flagged == b0.At(q).flagged
  {
    var laid := AdjustMines(b0, mines, p);
    var counted := CalculateNumbers(laid);
    b, order := RevealSafeArea(counted, p);
    assert forall q :: b0.InBounds(q) ==>
             counted.At(q).isRevealed == b0.At(q).isRevealed && counted.At(q).flagged == b0.At(q).flagged;
    SetUpLeavesRest(b0, counted, b, p, order);
    FloodKeepsMines(counted, b);
    assert SameMines(laid, counted);
    SameMinesSameSets(laid, counted);
    SameMinesSameSets(counted, b);
    NumberedKept(counted, b);
    assert forall q :: b.InBounds(q) && Adjacent(p, q) ==> Near(p, q);
    ZeroMeansNoMineAround(b, p);
  }

  /** The re-layout and the numbering leave reveal state and flags alone, so
      the set-up opens the cells the fill opens, in the fill's order, and
      keeps every other cell's reveal state and flag. */
  lemma SetUpLeavesRest(b0: Board, counted: Board, b: Board, p: Pos, order: seq<Pos>)
    requires SameShape(b0, counted) && FloodedFrom(counted, b) && FloodOrder(counted, b, p, order)
    requires forall q :: b0.InBounds(q) ==>
               counted.At(q).isRevealed == b0.At(q).isRevealed && counted.At(q).flagged == b0.At(q).flagged
    requires forall n, q ::
               (NewlyOpened(counted, b, n) && b.At(n).mineCount == 0 && b.InBounds(q) && Adjacent(n, q))
               ==> b.At(q).isRevealed || b.At(q).isMine
    ensures FloodOrder(b0, b, p, order)
    ensures forall q :: b0.InBounds(q) && !NewlyOpened(b0, b, q) ==>
              b.At(q).isRevealed == b0.At(q).isRevealed && b.At(q).flagged == b0.At(q).flagged
    ensures NoMineOpened(b0, b)
    ensures forall q :: b.InBounds(q) && b.At(q).isRevealed && !b0.At(q).isRevealed ==> !b.At(q).flagged
    ensures forall q :: b.InBounds(q) && b0.At(q).isRevealed ==> b.At(q).isRevealed
    ensures forall n, q ::
              (b0.InBounds(n) && !b0.At(n).isRevealed && b.At(n).isRevealed && b.At(n).mineCount == 0 &&
               b.InBounds(q) && Adjacent(n, q))
              ==> b.At(q).isRevealed || b.At(q).isMine
  {
    FloodOrderSameReveal(b0, counted, b, p, order);
    assert forall n :: NewlyOpened(b0, b, n) ==> NewlyOpened(counted, b, n);
  }

  /** handleCellClick. After the game has ended the page no longer listens
      for clicks; in hell mode any click sets off the mine; the first click
      lays out the mines (a 1x1 board just gets its one mine) and, on a larger
      board, floods from the click; then the click itself is processed. */
  method HandleClick(g: Game, p: Pos) returns (g': Game)
    requires g.board.Valid() && g.board.InBounds(p) && FirstClickFits(g, p)
    ensures g.status != Playing ==> g' == g
    ensures g.status == Playing && g.hell ==> g' == g.(status := Lost)
    ensures SameShape(g.board, g'.board) && g'.mines == g.mines && g'.hell == g.hell
    ensures g.status == Playing && !g.hell ==> !g'.firstClick
    ensures g.status == Playing && !g.hell && !g.firstClick ==> g' == Click(g, p)
    ensures (g.status == Playing && !g.hell && g.firstClick && g.board.rows == 1 && g.board.cols == 1 &&
             !g.board.At(p).isRevealed && !g.board.At(p).flagged) ==> g'.status == Lost
    ensures IsFirstSafeClick(g) ==>
              && g'.status == Playing
              && Numbered(g'.board)
              && |Where(g'.board, Mine)| == g.mines
              && g'.board.At(p).isRevealed && !g'.board.At(p).isMine && g'.board.At(p).mineCount == 0
              && (forall q :: g'.board.InBounds(q) && Near(p, q) ==> !g'.board.At(q).isMine)
    ensures IsFirstSafeClick(g) ==>
              forall n, q ::
                (g.board.InBounds(n) && !g.board.At(n).isRevealed && g'.board.At(n).isRevealed &&
                 g'.board.At(n).mineCount == 0 && g'.board.InBounds(q) && Adjacent(n, q))
                ==> g'.board.At(q).isRevealed || g'.board.At(q).isMine
    ensures IsFirstSafeClick(g) ==> NoMineOpened(g.board, g'.board)
    ensures IsFirstSafeClick(g) ==>
              (exists order :: FloodOrder(g.board, g'.board, p, order)) &&
              forall q :: g.board.InBounds(q) && !NewlyOpened(g.board, g'.board, q) ==>
                g'.board.At(q).isRevealed == g.board.At(q).isRevealed &&
                g'.board.At(q).flagged == g.board.At(q).flagged
  {
    if g.status != Playing {
      return g;
    }
    if g.hell {
      return g.(status := Lost);
    }
    var b := g.board;
    if g.firstClick {
      if b.rows == 1 && b.cols == 1 {
        b := b.Update(Pos(0, 0), b.At(Pos(0, 0)).(isMine := true));
      } else {
        ghost var order;
        b, order := FirstClickSetUp(b, g.mines, p);
        assert FloodOrder(g.board, b, p, order);
      }
    }
    g' := Click(g.(board := b, firstClick := false), p);
  }

  /** handleCellClick with the win check also run after the first-click flood
      fill, which the handler as written skips: the clicked cell is already
      revealed when the handler reaches its own reveal and returns early. */
  method HandleClickChecked(g: Game, p: Pos) returns (g': Game)
    requires g.board.Valid() && g.board.InBounds(p) && FirstClickFits(g, p)
    ensures g.status != Playing ==> g' == g
    ensures g.status == Playing && g.hell ==> g' == g.(status := Lost)
    ensures SameShape(g.board, g'.board) && g'.mines == g.mines && g'.hell == g.hell
    ensures g.status == Playing && !g.hell ==> !g'.firstClick
    ensures g.status == Playing && !g.hell && !g.firstClick ==> g' == Click(g, p)
    ensures IsFirstSafeClick(g) ==>
              && g'.status != Lost
              && Numbered(g'.board)
              && |Where(g'.board, Mine)| == g.mines
              && g'.board.At(p).isRevealed && !g'.board.At(p).isMine
              && (forall q :: g'.board.InBounds(q) && Near(p, q) ==> !g'.board.At(q).isMine)
    ensures IsFirstSafeClick(g) ==>
              forall n, q ::
                (g.board.InBounds(n) && !g.board.At(n).isRevealed && g'.board.At(n).isRevealed &&
                 g'.board.At(n).mineCount == 0 && g'.board.InBounds(q) && Adjacent(n, q))
                ==> g'.board.At(q).isRevealed || g'.board.At(q).isMine
    ensures IsFirstSafeClick(g) ==> NoMineOpened(g.board, g'.board)
    ensures IsFirstSafeClick(g) ==> (g'.status == Won <==> WinReached(g'.board, g'.mines))
    ensures IsFirstSafeClick(g) ==>
              (exists order :: FloodOrder(g.board, g'.board, p, order)) &&
              forall q :: g.board.InBounds(q) && !NewlyOpened(g.board, g'.board, q) ==>
                g'.board.At(q).isRevealed == g.board.At(q).isRevealed &&
                g'.board.At(q).flagged == g.board.At(q).flagged
  {
    g' := HandleClick(g, p);
    if IsFirstSafeClick(g) {
      var won := CheckWin(g'.board, g'.mines);
      if won {
        g' := g'.(status := Won);
      }
    }
  }

  /** A first click on a 1x2 board without mines, as the handler is written. */
  method FirstClickOnTwoCells() returns (g': Game)
    ensures g'.board.Valid() && Where(g'.board, Mine) == {}
    ensures WinReached(g'.board, g'.mines) && g'.status == Playing
  {
    var b := BlankBoard(1, 2);
    assert SafeZone(b, Pos(0, 0)) == {Pos(0, 0), Pos(0, 1)};
    var g := Game(b, 0, true, false, Playing);
    g' := HandleClick(g, Pos(0, 0));
    TwoCellsCleared(g.board, g'.board);
  }

  /** The same click with the win check in place ends the game won. */
  method FirstClickOnTwoCellsChecked() returns (g': Game)
    ensures g'.board.Valid() && Where(g'.board, Mine) == {}
    ensures WinReached(g'.board, g'.mines) && g'.status == Won
  {
    var b := BlankBoard(1, 2);
    assert SafeZone(b, Pos(0, 0)) == {Pos(0, 0), Pos(0, 1)};
    var g := Game(b, 0, true, false, Playing);
    g' := HandleClickChecked(g, Pos(0, 0));
    TwoCellsCleared(g.board, g'.board);
  }

  /** On a mine-free 1x2 board, a zero cell at (0, 0) that settles its
      neighbours leaves both cells revealed. */
  lemma TwoCellsCleared(b0: Board, b: Board)
    requires b0.Valid() && b0.rows == 1 && b0.cols == 2 && SameShape(b0, b)
    requires Where(b, Mine) == {} && !b0.At(Pos(0, 0)).isRevealed
    requires b.At(Pos(0, 0)).isRevealed && b.At(Pos(0, 0)).mineCount == 0
    requires forall n, q ::
               (b0.InBounds(n) && !b0.At(n).isRevealed && b.At(n).isRevealed &&
                b.At(n).mineCount == 0 && b.InBounds(q) && Adjacent(n, q))
               ==> b.At(q).isRevealed || b.At(q).isMine
    ensures WinReached(b, 0)
  {
    assert Adjacent(Pos(0, 0), Pos(0, 1));
    assert Pos(0, 1) !in Where(b, Mine);
    assert Where(b, Revealed) == {Pos(0, 0), Pos(0, 1)};
  }
}

=== FILE: session.dfy ===
/** A session on the page: the difficulty presets, a new game, and the
    stream of clicks and long presses played on it. */
module Session {
  import opened Grid
  import opened Numbers
  import opened Placement
  import opened Flood
  import opened Play

  /** The settings a game is built from. */
  datatype Config = Config(rows: nat, cols: nat, mines: nat, hell: bool)

  /** The settings the page starts out with. */
  const Default := Config(10, 10, 20, false)

  /** The settings a difficulty selects; any other name keeps the current ones. */
  function Reset(prev: Config, difficulty: string): (c: Config)
    ensures difficulty == "easy" ==> c == Config(10, 10, 20, false)
    ensures difficulty == "medium" ==> c == Config(20, 20, 80, false)
    ensures difficulty == "hard" ==> c == Config(30, 30, 200, false)
    ensures difficulty == "hell" ==> c == Config(1, 1, 1, true)
    ensures difficulty !in {"easy", "medium", "hard", "hell"} ==> c == prev
    ensures Fits(prev) ==> Fits(c)
  {
    if difficulty == "easy" then Config(10, 10, 20, false)
    else if difficulty == "medium" then Config(20, 20, 80, false)
    else if difficulty == "hard" then Config(30, 30, 200, false)
    else if difficulty == "hell" then Config(1, 1, 1, true)
    else prev
  }

  /** Settings a game can be played under: the hell board is one mined cell;
      any other board keeps room for its mines outside a full 3x3 block, so
      the first click's re-layout can always finish. */
  predicate Fits(c: Config) {
    if c.hell then c.rows == 1 && c.cols == 1 && c.mines == 1
    else c.mines + 9 <= c.rows * c.cols
  }

  /** Every preset, and the start-up default, can be played. */
  lemma PresetsFit(prev: Config, difficulty: string)
    requires difficulty in {"easy", "medium", "hard", "hell"}
    ensures Fits(Reset(prev, difficulty))
    ensures Fits(Default)
  {
  }

  /** On a board of the configured size, a fitting configuration meets what
      the first click needs wherever it lands. */
  lemma FitsFirstClick(c: Config, g: Game, p: Pos)
    requires Fits(c) && g.board.Valid()
    requires g.board.rows == c.rows && g.board.cols == c.cols && g.mines == c.mines && g.hell == c.hell
    ensures FirstClickFits(g, p)
  {
    SafeZoneAtMostNine(g.board, p);
  }

  /** initGame: a fresh grid, `mines` mines laid at random, the counts filled
      in; the next click is the first. */
  method NewGame(c: Config) returns (g: Game)
    requires c.mines <= c.rows * c.cols
    ensures g.board.Valid() && g.board.rows == c.rows && g.board.cols == c.cols
    ensures g.mines == c.mines && g.hell == c.hell && g.firstClick && g.status == Playing
    ensures |Where(g.board, Mine)| == c.mines && Numbered(g.board)
    ensures forall p :: g.board.InBounds(p) ==> !g.board.At(p).isRevealed && !g.board.At(p).flagged
  {
    var b := BlankBoard(c.rows, c.cols);
    assert Where(b, Mine) == {};
    var laid := PlaceMines(b, c.mines);
    var counted := CalculateNumbers(laid);
    SameMinesSameSets(laid, counted);
    g := Game(counted, c.mines, true, c.hell, Playing);
  }

  /** What the player does to a cell: a click, or a long press (or right click). */
  datatype Event = Tap(at: Pos) | Press(at: Pos)

  /** What every game of a session keeps, with the click handler as the page
      has it: the configured settings; a correctly numbered board holding
      exactly the configured mines; nothing open before the first click; no
      open mine unless the game is lost; and a win only when the win test
      holds. */
  ghost predicate Sound(c: Config, g: Game) {
    Configured(c, g) && Numbered(g.board) && |Where(g.board, Mine)| == c.mines &&
    (g.firstClick ==> Where(g.board, Revealed) == {}) &&
    (g.status != Lost ==> NoOpenMine(g.board)) &&
    (g.status == Won ==> WinReached(g.board, g.mines))
  }

  /** A game still in play after its first click has not yet been won. */
  predicate NotWonYet(g: Game)
    requires g.board.Valid()
  {
    g.status == Playing && !g.firstClick ==> !WinReached(g.board, g.mines)
  }

  /** The settings a game keeps from its configuration. */
  predicate Configured(c: Config, g: Game) {
    g.board.Valid() && g.board.rows == c.rows && g.board.cols == c.cols &&
    g.mines == c.mines && g.hell == c.hell
  }

  /** A click after the first keeps the session sound; on a hidden, unflagged
      safe cell it never loses, and it wins exactly when the win test holds. */
  lemma ClickKeepsSound(c: Config, g: Game, p: Pos)
    requires Sound(c, g) && g.board.InBounds(p) && g.status == Playing && !g.firstClick
    ensures Sound(c, Click(g, p))
    ensures !g.board.At(p).isRevealed && !g.board.At(p).flagged && !g.board.At(p).isMine ==>
              Click(g, p).status != Lost &&
              (Click(g, p).status == Won <==> WinReached(Click(g, p).board, g.mines))
  {
    var r := Click(g, p);
    RevealKeepsMines(g.board, r.board);
    RevealKeepsNumbered(g.board, r.board);
    if !g.board.At(p).isRevealed && !g.board.At(p).flagged && !g.board.At(p).isMine {
      ClickWinExact(g, p);
      ClickOnSafeCell(g, p);
      assert NoOpenMine(r.board);
    }
  }

  /** A long press keeps the session sound: it moves no mine, changes no
      count and opens nothing. */
  lemma LongPressKeepsSound(c: Config, g: Game, p: Pos)
    requires Sound(c, g) && g.board.InBounds(p)
    ensures Sound(c, LongPress(g, p))
  {
    var b := g.board;
    var b' := LongPress(g, p).board;
    assert SameMines(b, b');
    NumberedKept(b, b');
    SameMinesSameSets(b, b');
  }

  /** The first click on a board of more than one cell keeps the session
      sound and leaves the game in play. */
  lemma FirstClickKeepsSound(c: Config, g: Game, g': Game, p: Pos)
    requires Sound(c, g) && g.board.InBounds(p) && IsFirstSafeClick(g)
    requires SameShape(g.board, g'.board) && g'.mines == g.mines && g'.hell == g.hell && !g'.firstClick
    requires g'.status != Lost && Numbered(g'.board) && |Where(g'.board, Mine)| == g.mines
    requires NoMineOpened(g.board, g'.board)
    requires g'.status == Won ==> WinReached(g'.board, g'.mines)
    ensures Sound(c, g')
  {
    forall q | g'.board.InBounds(q) && g'.board.At(q).isRevealed
      ensures !g'.board.At(q).isMine
    {
      assert q !in Where(g.board, Revealed);
    }
  }

  /** What the first tap on a board of more than one cell does, beyond
      keeping the session sound: the tapped cell shows zero; the cells opened
      form the flood fill's chain of zero cells from the tap; every neighbour
      of an opened zero cell is open or a mine; every other cell keeps its
      reveal state and its flag. */
  ghost predicate FirstTapOpens(g: Game, g': Game, p: Pos)
    requires SameShape(g.board, g'.board) && g.board.InBounds(p)
  {
    g'.board.At(p).mineCount == 0 &&
    (exists order :: FloodOrder(g.board, g'.board, p, order)) &&
    (forall n, q ::
       (NewlyOpened(g.board, g'.board, n) && g'.board.At(n).mineCount == 0 && g'.board.InBounds(q) &&
        Adjacent(n, q))
       ==> g'.board.At(q).isRevealed || g'.board.At(q).isMine) &&
    (forall q :: g.board.InBounds(q) && !NewlyOpened(g.board, g'.board, q) ==>
       g'.board.At(q).isRevealed == g.board.At(q).isRevealed &&
       g'.board.At(q).flagged == g.board.At(q).flagged)
  }

  /** One event as the page dispatches it: a click to handleCellClick, a long
      press or right click to handleLongPress. The page only delivers events
      for its own cells. */
  method Step(c: Config, g: Game, e: Event) returns (g': Game)
    requires Fits(c) && Sound(c, g)
    ensures Sound(c, g')
    ensures !g.board.InBounds(e.at) ==> g' == g
    ensures e.Press? && g.board.InBounds(e.at) ==> g' == LongPress(g, e.at)
    ensures e.Tap? && g.status != Playing ==> g' == g
    ensures e.Tap? && g.board.InBounds(e.at) && g.status == Playing && g.hell ==> g' == g.(status := Lost)
    ensures e.Tap? && g.board.InBounds(e.at) && g.status == Playing && !g.hell && !g.firstClick ==>
              g' == Click(g, e.at)
    ensures e.Tap? && g.board.InBounds(e.at) && g.status == Playing && !g.hell && g.firstClick ==>
              g'.status == Playing && !g'.firstClick && g'.board.At(e.at).isRevealed
    ensures e.Tap? && g.board.InBounds(e.at) && g.status == Playing && !g.hell && g.firstClick ==>
              FirstTapOpens(g, g', e.at)
  {
    if !g.board.InBounds(e.at) {
      return g;
    }
    match e
    case Tap(p) =>
      FitsFirstClick(c, g, p);
      g' := HandleClick(g, p);
      if g.status == Playing && !g.hell {
        if g.firstClick {
          FirstClickKeepsSound(c, g, g', p);
        } else {
          ClickKeepsSound(c, g, p);
        }
      }
    case Press(p) =>
      LongPressKeepsSound(c, g, p);
      g' := LongPress(g, p);
  }

  /** A whole session under one configuration: a new game and then the events. */
  method PlaySession(c: Config, events: seq<Event>) returns (g: Game)
    requires Fits(c)
    ensures Sound(c, g)
    ensures |events| == 0 ==> g.firstClick && g.status == Playing
  {
    g := NewGame(c);
    var i := 0;
    while i < |events|
      invariant 0 <= i <= |events|
      invariant Sound(c, g)
      invariant i == 0 ==> g.firstClick && g.status == Playing
    {
      g := Step(c, g, events[i]);
      i := i + 1;
    }
  }

  /** The first tap on an empty 3x3 board, a configuration the session
      accepts, opens all nine cells and meets the win test, yet the game
      stays in play: the handler as written skips the win check. */
  method FirstTapOnEmptyThreeByThree() returns (g: Game)
    ensures g.board.Valid() && g.board.rows == 3 && g.board.cols == 3 && g.mines == 0
    ensures WinReached(g.board, g.mines) && g.status == Playing && !g.firstClick
  {
    var c := Config(3, 3, 0, false);
    var g0 := NewGame(c);
    var p := Pos(1, 1);
    g := Step(c, g0, Tap(p));
    forall q | g.board.InBounds(q)
      ensures g.board.At(q).isRevealed
    {
      if q != p {
        assert Adjacent(p, q);
        assert q !in Where(g.board, Mine);
      }
    }
    assert Where(g.board, Revealed) == Where(g.board, Any);
    AllCellsCard(g.board);
  }

  /** One event with the win check also run after the first click's flood
      fill: a game still in play after its first click is never already won. */
  method StepChecked(c: Config, g: Game, e: Event) returns (g': Game)
    requires Fits(c) && Sound(c, g) && NotWonYet(g)
    ensures Sound(c, g') && NotWonYet(g')
    ensures !g.board.InBounds(e.at) ==> g' == g
    ensures e.Press? && g.board.InBounds(e.at) ==> g' == LongPress(g, e.at)
    ensures e.Tap? && g.status != Playing ==> g' == g
    ensures e.Tap? && g.board.InBounds(e.at) && g.status == Playing && g.hell ==> g' == g.(status := Lost)
    ensures e.Tap? && g.board.InBounds(e.at) && g.status == Playing && !g.hell && !g.firstClick ==>
              g' == Click(g, e.at)
    ensures e.Tap? && g.board.InBounds(e.at) && g.status == Playing && !g.hell && g.firstClick ==>
              g'.status != Lost && !g'.firstClick && FirstTapOpens(g, g', e.at)
  {
    if !g.board.InBounds(e.at) {
      return g;
    }
    match e
    case Tap(p) =>
      FitsFirstClick(c, g, p);
      g' := HandleClickChecked(g, p);
      if g.status == Playing && !g.hell {
        if g.firstClick {
          FirstClickKeepsSound(c, g, g', p);
        } else {
          ClickKeepsSound(c, g, p);
        }
      }
    case Press(p) =>
      LongPressKeepsSound(c, g, p);
      g' := LongPress(g, p);
  }

  /** A whole session with the corrected handler. */
  method PlaySessionChecked(c: Config, events: seq<Event>) returns (g: Game)
    requires Fits(c)
    ensures Sound(c, g) && NotWonYet(g)
    ensures |events| == 0 ==> g.firstClick && g.status == Playing
  {
    g := NewGame(c);
    var i := 0;
    while i < |events|
      invariant 0 <= i <= |events|
      invariant Sound(c, g) && NotWonYet(g)
      invariant i == 0 ==> g.firstClick && g.status == Playing
    {
      g := StepChecked(c, g, events[i]);
      i := i + 1;
    }
  }
}
